=== FILE: README.md ===
# Drawing-session timer, modelled in Dafny

The application times a drawing session. A session has four steps: sketch (스케치), colour (채색), detail (묘사) and finish (정리).
The setup page collects a subject, a drawing type, a total time in hours and optional per-step times.
It sends them to the timer page as a query string.
The timer page does the following:
- splits the total into per-step goals, dividing whatever is left equally among the steps left on automatic;
- counts down once a second;
- records each step's end time and duration as the user completes it;
- shows a tip for the current step, re-drawn only when the step changes or overtime begins;
- hands the session to the session-detail page on pause or finish.

The session-detail page reads the session back with defaults for every missing value.
It shows the elapsed time, any overtime and each step's state, and it can send the session back to the timer ("continue").
The Slack summary formats durations and the chosen per-step times.

Modules, one per part of the program:

- `Options`: the option type. `NonEmpty` and `TextOr` model JavaScript's `value || default` on strings.
- `Digits`: `Number.prototype.toString` on whole numbers, `padStart(2, '0')`, and `parseFloat` on the plain decimal literals the setup form offers.
- `TimeFormat`: covers
  - `formatTime` (`H:MM:SS` / `M:SS`) and `formatTimeWithHours` (`H시간 M분` / `M분`), on real-valued seconds with JavaScript's `Math.floor` and truncating `%`;
  - the text-to-integer conversion `parseInt(x.toString())`;
  - parsers that read both formats back.
- `Steps`: step records, the fixed step names, `findIndex(endTime === undefined)` and the sums of durations.
- `Allocation`: the automatic split of the total among the steps with no explicit time.
- `Tips`: the shipped tip table and `getStepTip`. The random number is a parameter.
- `Queries`: the query strings between the pages, as typed records.
- `Timer`: the timer page's state machine. It covers start, tick, step completion, pause and finish, the displayed values, and the tip kept between renders.
- `SessionDetail`: the session-detail page. It covers decoding with defaults, the settled elapsed time, the overtime note, row states and "continue".
- `SessionSetup`: `handleStart` and `isFormValid`.
- `SlackFormat`: `formatDuration` and `formatStageTimes`.
- `Handoffs`: the round trips between the timer and the session-detail page.

Modelling choices:

- Time:
  - Seconds on the timer page are `real`, because the total is hours × 3600 and can be fractional.
  - Times on the session-detail page are `int`, because they come back through `parseInt`.
  - Real arithmetic is exact, so floating-point rounding is not modelled.
- Inputs from outside:
  - `Date.now()` is a parameter in epoch milliseconds (`nowMs`).
  - `Math.random()` is a parameter `rand` in [0, 1).
  - The once-a-second interval is a call of `Timer.Tick`.
  - A React render is a call of `Timer.Render`.
- Query strings:
  - A missing parameter and an empty one are both `None`, because the pages treat them alike.
  - The `stepRecords` parameter is one of three outcomes: absent, not valid JSON, or a decoded record list (`Queries.RecordsParam`).

Behaviours of the code the model keeps:

- The tip is re-drawn when `remainingTime <= 0` is first seen in a step (`src/app/timer/page.tsx:112-122`). Reaching exactly zero counts as overtime; the time does not have to go negative.
- Completing the last step sends no session-complete event from the timer page. It sets the finished flag and navigates (`src/app/timer/page.tsx:158-161`).
- `isPaused=true` alone selects the decrementing tick (`src/app/timer/page.tsx:127`). This holds even when the records could not be restored and the session restarted from fresh records and the current time.

## Model

| member | source | states |
|---|---|---|
| Options.NonEmpty | src/app/timer/page.tsx:44-45 | an empty query value reads as missing, any other value is kept as is |
| Options.TextOr | src/app/session-detail/page.tsx:69-70 | `value or default` in JavaScript: the value when present and non-empty, otherwise the default |
| Digits.NatToString | src/app/timer/page.tsx:20 | `toString` of a whole number is a digit string that reads back as the number, without a leading zero |
| Digits.IntToString | src/app/timer/page.tsx:20-22 | a negative number is written as a minus sign followed by its magnitude |
| Digits.PadStart2 | src/app/timer/page.tsx:20 | `padStart(2, '0')` keeps text of two or more characters and left-pads shorter text with zeros to length 2 |
| Digits.TwoDigitField | src/app/timer/page.tsx:20 | a clock field below 60 is written with exactly two digits that read back as its value |
| Digits.ScanDigits | src/app/session-detail/page.tsx:24-33 | in the parsers that read the clock texts back, a written number followed by a non-digit scans back to the number and leaves the rest of the text |
| Digits.ParseDecimal | src/app/timer/page.tsx:39 | `parseFloat` of a plain decimal literal is non-negative, and a whole-number literal gives its value |
| Digits.DigitsValueAppend | src/app/timer/page.tsx:39 | reading two digit strings written one after the other is reading the first, shifted left by the length of the second, plus reading the second |
| Digits.DecimalLiteral | src/app/timer/page.tsx:39 | `parseFloat` of `i.f` is the digits `if` read as a whole number, divided by ten to the power of the number of fraction digits |
| Digits.OneMinuteOption | src/app/session-setup/page.tsx:88 | the form's "1분" option reads as exactly 0.0167 hours |
| TimeFormat.Trunc | src/app/session-detail/page.tsx:72 | `parseInt(x.toString())` truncates toward zero: the floor for non-negative x, and the ceiling (never above 0) for negative x |
| TimeFormat.TruncNegate | src/app/session-detail/page.tsx:102 | truncation is symmetric about zero, so a time left of −0.88 seconds reads back as 0 |
| TimeFormat.TruncWhole | src/app/session-detail/page.tsx:102 | a whole-second value survives the text round trip unchanged |
| TimeFormat.FloorDivision | src/app/timer/page.tsx:15-16 | for non-negative seconds, `Math.floor(s / 3600)` and `Math.floor(s / 60)` equal integer division of the whole seconds |
| TimeFormat.RemainderOfTime | src/app/timer/page.tsx:16-17 | for non-negative seconds, `s % 3600` and `s % 60` are non-negative and their floor is the integer remainder of the whole seconds |
| TimeFormat.ClockOfNonNegative | src/app/timer/page.tsx:14-17 | hours, minutes and seconds are the mixed-radix digits of the whole seconds: minutes and seconds in 0..59, and they add back up to the seconds |
| TimeFormat.FormatTimeFields | src/app/timer/page.tsx:14-23 | `H:MM:SS` exactly from 3600 seconds up and `M:SS` below, with two-digit minute and second fields |
| TimeFormat.ShowClockReadsBack | src/app/timer/page.tsx:19-22 | a clock with minutes and seconds in 0..59 is written in text that reads back as its total seconds |
| TimeFormat.FormatTimeRoundTrip | src/app/session-detail/page.tsx:24-33 | for every non-negative time, reading `formatTime` back gives the whole seconds: the text loses only the fraction |
| TimeFormat.FormatTimeWithHoursFields | src/app/timer/page.tsx:25-33 | `H시간 M분` exactly from one hour up and `M분` below, where M is the leftover minutes in 0..59 |
| TimeFormat.ShowHoursReadsBack | src/app/session-detail/page.tsx:39-42 | the hours/minutes text reads back as 60 × hours + minutes |
| TimeFormat.FormatTimeWithHoursRoundTrip | src/app/session-detail/page.tsx:35-43 | for every non-negative time, reading `formatTimeWithHours` back gives the whole minutes |
| Steps.FreshRecords | src/app/timer/page.tsx:78 | a fresh session has one record per step, named in step order, with neither end time nor duration |
| Steps.FindUncompleted | src/app/timer/page.tsx:68 | `findIndex(endTime === undefined)`: −1 exactly when every step is completed, otherwise the first uncompleted index |
| Steps.CompletedTimeIsPrefixDuration | src/app/timer/page.tsx:84-87 | when only completed records carry a duration, the resumed elapsed time (the completed steps' durations) equals the durations of all records (the sum `handleStepComplete` uses) |
| Steps.PrefixDurationOfPrefix | src/app/timer/page.tsx:145-147 | `slice(0, k)` then sum: the sum over the first k records does not depend on later records |
| Steps.PrefixDurationUnchanged | src/app/timer/page.tsx:145-155 | writing record j leaves the durations before j unchanged |
| Allocation.AutoShare | src/app/timer/page.tsx:48-51 | the automatic share times the number of automatic steps is the total less the explicit times, and 0 when there is no automatic step |
| Allocation.Allocate | src/app/timer/page.tsx:52 | an explicit step keeps its time, and every automatic step gets the automatic share |
| Allocation.AllocationSumsToTotal | src/app/timer/page.tsx:47-52 | with at least one automatic step the goals add up exactly to the total, even when the explicit times exceed it |
| Allocation.AllocationAllExplicit | src/app/timer/page.tsx:49-52 | with no automatic step, the goals are the explicit times, whatever the total |
| Allocation.NoAutoMeansAllExplicit | src/app/timer/page.tsx:48 | a zero count of automatic steps means every step is explicit |
| Allocation.AllocationAllAutomatic | src/app/timer/page.tsx:47-52 | with every step automatic, each goal is the total divided by the number of steps |
| Tips.CategoryOf | src/shared/utils/tipUtils.ts:4 | the overtime list is chosen exactly when the session is in overtime |
| Tips.RandomIndex | src/shared/utils/tipUtils.ts:7 | `Math.floor(Math.random() * length)` is a valid index |
| Tips.StepTipFrom | src/shared/utils/tipUtils.ts:3-8 | the tip is "" when the list is empty, and otherwise an element of the step's list for the category |
| Tips.ShippedTipsNonEmpty | src/shared/data/stepTips.ts:12-55 | every step has tips in both categories, so the page never shows an empty tip |
| Tips.OvertimeTipIsFixed | src/shared/data/stepTips.ts:12-55 | each step has one overtime tip, so the overtime tip does not depend on the random number |
| Timer.Param | src/app/timer/page.tsx:44-45 | a parameter is present exactly when its key is in the query with a non-empty value, and it is that value |
| Timer.ReadDecimal | src/app/timer/page.tsx:44-45 | a number parameter is missing exactly when its text is missing or empty, and otherwise is `parseFloat` of its text |
| Timer.ReadQuery | src/app/timer/page.tsx:39-66 | subject, type and `isPaused` are the query's text; totalTime and each stage time are `parseFloat` of their text, missing when not given; `startedAt` is `parseInt` of its digits, missing when not given |
| Timer.ExplicitSeconds | src/app/timer/page.tsx:43-46 | a given stage time becomes hours × 3600 seconds, and an empty or missing one becomes automatic |
| Timer.ExplicitGoal | src/app/timer/page.tsx:43-52 | a stage given a time has that time, in seconds, as its goal, whatever the total and the other stages |
| Timer.ResumeStep | src/app/timer/page.tsx:68-71 | resumption is at the first uncompleted step, or at step 0 when all are completed; within range for any non-empty list |
| Timer.Start | src/app/timer/page.tsx:53-95 | restores records, step and start time exactly when `isPaused` is "true" and records and start are present; otherwise fresh records, step 0 and now. A resumed session has spent the completed steps' time; a fresh one has the whole total left |
| Timer.Tick | src/app/timer/page.tsx:124-141 | only the time left changes. A fresh session sets it to the total less the whole seconds since the start, a resumed one subtracts one second, and a finished one is unchanged |
| Timer.FreshTickIsAnchored | src/app/timer/page.tsx:132-136 | a fresh session's time left is the total less the whole seconds since start, independent of earlier ticks |
| Timer.ResumedTicksCount | src/app/timer/page.tsx:127-130 | a resumed session loses exactly one second per tick, whenever the ticks fire |
| Timer.Handoff | src/app/timer/page.tsx:172-198 | the session-detail query carries the subject and type (with the same defaults the timer applied), the records, the start time and the finished flag, with total and time left truncated to whole seconds, on both the pause and the finish path |
| Timer.Pause | src/app/timer/page.tsx:167-170 | a pause hands over the current records as an unfinished session |
| Timer.Complete | src/app/timer/page.tsx:143-165 | only the current record changes: its end time is the seconds since start, and its duration is that less the earlier durations. The last step finishes and hands off the updated records; any other step advances. Nothing else in the session changes: not the time left, the start, the total, the goals, the tick mode, the names or the tip |
| Timer.FreshStartIsConsistent | src/app/timer/page.tsx:77-81 | a fresh session has no gaps: no step completed, step 0 current |
| Timer.CompleteKeepsConsistent | src/app/timer/page.tsx:143-165 | completing steps in order keeps completed steps before uncompleted ones, and each end time equals the sum of the durations up to it |
| Timer.CurrentIsFirstUncompleted | src/app/timer/page.tsx:63-71 | in a consistent session the current step is the one a resume would pick |
| Timer.OverTime | src/app/timer/page.tsx:200-201 | the overtime is never negative, and it is the magnitude of a negative time left, otherwise 0 |
| Timer.Progress | src/app/timer/page.tsx:202 | progress is defined exactly when the total is non-zero, and never above 100. For a positive total it is elapsed / total × 100 before overtime and exactly 100 in overtime, and it is non-negative while the elapsed time is |
| Timer.ClockSeconds | src/app/timer/page.tsx:238 | the big clock shows the absolute value of the time left, in both branches |
| Timer.MainClockText | src/app/timer/page.tsx:238 | the big clock's text reads back as the whole seconds of that absolute value |
| Timer.StepTypeAt | src/app/timer/page.tsx:105-111 | the step's name maps to a tip key, and the key is `finish` exactly for the last step |
| Timer.Render | src/app/timer/page.tsx:112-122 | a render changes only the tip memo, and only on a step change or on entering overtime; the new tip comes from the current step's list for its category |
| Timer.RenderIsStable | src/app/timer/page.tsx:114-122 | a second render draws no new tip, whatever the random number |
| Timer.OvertimeTipShown | src/app/timer/page.tsx:112-122 | on entering overtime the step's overtime tip is shown |
| SessionDetail.DecodeRecords | src/app/session-detail/page.tsx:77-89 | decoded records are kept as they are; missing or malformed records become the four fresh records |
| SessionDetail.Decode | src/app/session-detail/page.tsx:67-98 | decoding never fails. Defaults: subject and type have fixed non-empty defaults, start is now, total is 0, and finished only for the exact text "true" |
| SessionDetail.ElapsedTimeCases | src/app/session-detail/page.tsx:100-132 | a finished session shows its completed steps' time; an unfinished one shows total − remaining when given, and otherwise the completed steps' time |
| SessionDetail.OvertimeNote | src/app/session-detail/page.tsx:323-331 | a `(+…)` note appears exactly for a finished session that ran over, and it reads back as the overrun in whole minutes |
| SessionDetail.InProgressIsFirstUncompleted | src/app/session-detail/page.tsx:401-439 | a row is "in progress" exactly when the session is unfinished, the row is uncompleted and every earlier row is completed |
| SessionDetail.AtMostOneInProgress | src/app/session-detail/page.tsx:401-439 | at most one row is in progress, and none in a finished session |
| SessionDetail.Continue | src/app/session-detail/page.tsx:163-177 | "continue" sends `isPaused=true`, the records, the original start and a total in hours that is the seconds divided by 3600, with no stage times |
| SessionSetup.StartQuery | src/app/session-setup/page.tsx:19-32 | navigation happens exactly when subject, type and total are non-empty, with exactly the seven keys carrying the form's values |
| SessionSetup.StartsIffValid | src/app/session-setup/page.tsx:19-34 | the start button is enabled exactly when starting navigates |
| SessionSetup.TimerReadsForm | src/app/session-setup/page.tsx:25-31 | the timer reads back the subject, type and total from the form, a stage left on "자동" as automatic, and a chosen stage time as its parsed hours |
| SessionSetup.FormStageGoal | src/app/session-setup/page.tsx:25-31 | a stage time chosen on the form becomes that step's goal on the timer: its hours times 3600 seconds |
| SessionSetup.OneHourAutomatic | src/app/session-setup/page.tsx:92 | a one-hour session with every stage automatic gives 3600 seconds and a 900-second goal per step |
| SessionSetup.FormTotalSeconds | src/app/session-setup/page.tsx:25-31 | the timer's total is the form's total in hours times 3600 seconds |
| SessionSetup.OneMinuteOptionSeconds | src/app/session-setup/page.tsx:88 | the "1분" option gives the timer a total of 60.12 seconds, not 60 |
| SlackFormat.FormatDurationIsFormatTimeWithHours | src/shared/utils/sendToSlack.ts:94-102 | the Slack duration text is the session-detail page's hours/minutes text, and so inherits its read-back |
| SlackFormat.Round | src/shared/utils/sendToSlack.ts:111 | `Math.round` gives the integer within one half of x, with halves rounded up |
| SlackFormat.EntryStartsWithName | src/shared/utils/sendToSlack.ts:111-114 | every stage entry begins with its whole stage name, whose first character is never that of "자동 분배" |
| SlackFormat.EntriesFromListed | src/shared/utils/sendToSlack.ts:110-114 | the entries from a stage on are those of the stages given a non-zero time, one each, in stage order |
| SlackFormat.EntriesFollowStageOrder | src/shared/utils/sendToSlack.ts:110-114 | the summary lists exactly the stages given a non-zero time, in stage order, each with its minutes |
| SlackFormat.Join | src/shared/utils/sendToSlack.ts:116 | the joined text starts with the first entry and is that entry when it is alone |
| SlackFormat.JoinSnoc | src/shared/utils/sendToSlack.ts:116 | `join(' / ')` builds up left to right: each further entry appends the separator and then the entry |
| SlackFormat.FormatStageTimes | src/shared/utils/sendToSlack.ts:107-117 | "자동 분배" exactly when no stage times are given or none is listed; otherwise the entries joined by " / " |
| SlackFormat.NothingListedMeansAutomatic | src/shared/utils/sendToSlack.ts:108-116 | stage times that are all missing or zero give "자동 분배" |
| Handoffs.ContinueRestoresSession | src/app/session-detail/page.tsx:163-177 | after "continue", the timer resumes with the same records, start, subject and type, at the first uncompleted step, with the completed time spent and equal goals |
| Handoffs.PauseIsReadBack | src/app/timer/page.tsx:172-184 | the session-detail page reads a pause back with the same subject, type, start and records, unfinished, with elapsed = truncated total − truncated time left |
| Handoffs.PausedElapsedIsExact | src/app/session-detail/page.tsx:100-103 | with whole-second totals, the session-detail page shows exactly the timer's elapsed time |
| Handoffs.FractionalTotalDrifts | src/app/session-detail/page.tsx:101-102 | a fractional total (the form's 1-minute option) can make the shown elapsed time differ from the timer's |
| Handoffs.PauseThenContinue | src/app/session-detail/page.tsx:163-177 | pause then continue gives back a consistent session on the same step with the same records, its time left restarting from the whole-second total less the completed time |
| Handoffs.FinishShowsTotalDuration | src/app/session-detail/page.tsx:109-115 | after the last step, the session-detail page's elapsed time is the last end time: the durations add up to the whole session |

## Left out

- JSON and URL encoding: `stepRecords` is modelled as its decoding outcome, and query strings as typed records or as a map from keys to texts. `encodeURIComponent`, `JSON.stringify` and `JSON.parse` are not modelled.
- Timer.ReadQuery: requires number parameters to be missing or plain decimal literals, and `startedAt` to be digits. `parseFloat` and `parseInt` on other text (NaN, partial parses, exponents) are not modelled. The setup page only offers such literals.
- Timer.Start: requires a restored record list to have four entries. The code never checks the length. A longer list whose first four records are completed makes the current step 4; the page then finds no tip key for it and `getStepTip` throws (`src/app/timer/page.tsx:68-71`, `:111`, `src/shared/utils/tipUtils.ts:5`). A shorter list lets completion write records that have no name (`src/app/timer/page.tsx:151-155`).
- Timer.Progress: gives `None` for a zero total. JavaScript divides by zero there: with time elapsed the quotient is Infinity and the bar shows 100; with no time elapsed it is NaN; with negative elapsed time it is −Infinity.
- Floating point: reals are exact, so the rounding of hours × 3600 and of repeated subtraction is not modelled.
- TimeFormat.Trunc: `toString` of non-integers uses exponent notation for very large or very small numbers. This notation is not modelled; the conversion is truncation.
- I/O and rendering: the scheduling of `setInterval` and React's state updates and re-renders are not modelled. They are explicit calls of `Timer.Tick` and `Timer.Render`.
- Event logging is not modelled: Slack messages, Google Analytics, the spreadsheet, the unexpected-exit beacon and their API routes. The model covers only the two formatting helpers of the Slack message.
- Side features of the session-detail page are not modelled: image upload, page capture, description editing, back navigation and `formatDate`.
- The timer page's step list and goal display are not modelled, and neither is the session-detail page's remaining-time text. They are markup over values that are modelled (`Allocation.Allocate`, `TimeFormat.FormatTime`).

=== FILE: allocation.dfy ===
/** Goal time per step: steps given an explicit time keep it, and the steps
    left on automatic share what remains of the total evenly. */
module Allocation {
  import opened Options

  /** Number of steps left on automatic. */
  function AutoCount(explicit: seq<Option<real>>): nat {
    if explicit == [] then 0
    else AutoCount(explicit[..|explicit| - 1]) + (if explicit[|explicit| - 1].None? then 1 else 0)
  }

  /** Sum of the explicitly given times. */
  function ExplicitSum(explicit: seq<Option<real>>): real {
    if explicit == [] then 0.0
    else ExplicitSum(explicit[..|explicit| - 1]) + explicit[|explicit| - 1].GetOr(0.0)
  }

  function Sum(xs: seq<real>): real {
    if xs == [] then 0.0 else Sum(xs[..|xs| - 1]) + xs[|xs| - 1]
  }

  /** The even share of each automatic step; 0 (and no division) when no step
      is automatic. */
  function AutoShare(total: real, explicit: seq<Option<real>>): (a: real)
    ensures AutoCount(explicit) == 0 ==> a == 0.0
    ensures AutoCount(explicit) > 0 ==> a * AutoCount(explicit) as real == total - ExplicitSum(explicit)
  {
    var n := AutoCount(explicit);
    if n > 0 then (total - ExplicitSum(explicit)) / n as real else 0.0
  }

  /** The goal of every step, in seconds. */
  function Allocate(total: real, explicit: seq<Option<real>>): (goals: seq<real>)
    ensures |goals| == |explicit|
    ensures forall i :: 0 <= i < |explicit| && explicit[i].Some? ==> goals[i] == explicit[i].value
    ensures forall i :: 0 <= i < |explicit| && explicit[i].None? ==> goals[i] == AutoShare(total, explicit)
  {
    var a := AutoShare(total, explicit);
    seq(|explicit|, i requires 0 <= i < |explicit| => explicit[i].GetOr(a))
  }

  /** Filling every automatic step with `a` adds `a` once per automatic step. */
  lemma {:induction false} SumFilled(explicit: seq<Option<real>>, a: real)
    ensures Sum(seq(|explicit|, i requires 0 <= i < |explicit| => explicit[i].GetOr(a)))
         == ExplicitSum(explicit) + AutoCount(explicit) as real * a
  {
    var filled := seq(|explicit|, i requires 0 <= i < |explicit| => explicit[i].GetOr(a));
    if explicit != [] {
      var init := explicit[..|explicit| - 1];
      SumFilled(init, a);
      var initFilled := seq(|init|, i requires 0 <= i < |init| => init[i].GetOr(a));
      assert filled[..|filled| - 1] == initFilled;
    }
  }

  /** With at least one automatic step the goals add up to the total exactly. */
  lemma AllocationSumsToTotal(total: real, explicit: seq<Option<real>>)
    requires AutoCount(explicit) > 0
    ensures Sum(Allocate(total, explicit)) == total
  {
    SumFilled(explicit, AutoShare(total, explicit));
  }

  /** With every step explicit the goals are the given times, whatever they
      add up to. */
  lemma AllocationAllExplicit(total: real, explicit: seq<Option<real>>)
    requires AutoCount(explicit) == 0
    ensures Sum(Allocate(total, explicit)) == ExplicitSum(explicit)
    ensures forall i :: 0 <= i < |explicit| ==> explicit[i].Some?
  {
    SumFilled(explicit, 0.0);
    NoAutoMeansAllExplicit(explicit);
  }

  lemma {:induction false} NoAutoMeansAllExplicit(explicit: seq<Option<real>>)
    requires AutoCount(explicit) == 0
    ensures forall i :: 0 <= i < |explicit| ==> explicit[i].Some?
  {
    if explicit != [] {
      NoAutoMeansAllExplicit(explicit[..|explicit| - 1]);
      assert forall i :: 0 <= i < |explicit| - 1 ==> explicit[i] == explicit[..|explicit| - 1][i];
    }
  }

  /** With every step automatic each one gets an equal part of the total. */
  lemma {:induction false} AllocationAllAutomatic(total: real, explicit: seq<Option<real>>)
    requires |explicit| > 0
    requires forall i :: 0 <= i < |explicit| ==> explicit[i].None?
    ensures AutoCount(explicit) == |explicit| && ExplicitSum(explicit) == 0.0
    ensures forall i :: 0 <= i < |explicit| ==> Allocate(total, explicit)[i] == total / |explicit| as real
  {
    NoneCounts(explicit);
  }

  lemma {:induction false} NoneCounts(explicit: seq<Option<real>>)
    requires forall i :: 0 <= i < |explicit| ==> explicit[i].None?
    ensures AutoCount(explicit) == |explicit| && ExplicitSum(explicit) == 0.0
  {
    if explicit != [] {
      NoneCounts(explicit[..|explicit| - 1]);
    }
  }
}

=== FILE: digits.dfy ===
/** Decimal digit strings: JavaScript's `Number.prototype.toString` on whole
    numbers, and `parseFloat` on the plain decimal literals the setup form
    offers. */
module Digits {
  import opened Options

  predicate IsDigit(c: char) {
    '0' <= c <= '9'
  }

  predicate AllDigits(s: string) {
    forall i :: 0 <= i < |s| ==> IsDigit(s[i])
  }

  function DigitValue(c: char): (d: nat)
    requires IsDigit(c)
    ensures d < 10
  {
    (c - '0') as nat
  }

  function DigitChar(d: nat): (c: char)
    requires d < 10
    ensures IsDigit(c) && DigitValue(c) == d
  {
    ('0' as int + d) as char
  }

  /** The value of a digit string, most significant digit first. */
  function DigitsValue(s: string): nat
    requires AllDigits(s)
  {
    if s == [] then 0 else DigitsValue(s[..|s| - 1]) * 10 + DigitValue(s[|s| - 1])
  }

  function Pow10(k: nat): (p: nat)
    ensures p >= 1
  {
    if k == 0 then 1 else 10 * Pow10(k - 1)
  }

  /** The shortest decimal spelling of `n`, as `n.toString()` gives it. */
  function NatToString(n: nat): (s: string)
    ensures |s| >= 1 && AllDigits(s)
    ensures DigitsValue(s) == n
    ensures |s| > 1 ==> s[0] != '0'
    ensures n < 10 ==> |s| == 1
    ensures n >= 10 ==> |s| >= 2
  {
    if n < 10 then [DigitChar(n)]
    else
      var prefix := NatToString(n / 10);
      var s := prefix + [DigitChar(n % 10)];
      assert s[..|s| - 1] == prefix;
      s
  }

  /** `i.toString()` for any whole number: a minus sign before negatives. */
  function IntToString(i: int): (s: string)
    ensures i >= 0 ==> s == NatToString(i)
    ensures i < 0 ==> s == "-" + NatToString(-i)
  {
    if i < 0 then "-" + NatToString(-i) else NatToString(i)
  }

  /** `str.padStart(2, '0')`. */
  function PadStart2(s: string): (r: string)
    ensures |s| >= 2 ==> r == s
    ensures |s| < 2 ==> |r| == 2 && r[2 - |s|..] == s
    ensures |s| < 2 ==> forall i :: 0 <= i < 2 - |s| ==> r[i] == '0'
  {
    if |s| >= 2 then s
    else if |s| == 1 then "0" + s
    else "00"
  }

  /** A minute or second field (below 60) is written with two digits. */
  lemma TwoDigitField(n: nat)
    requires n < 60
    ensures |PadStart2(NatToString(n))| == 2
    ensures AllDigits(PadStart2(NatToString(n)))
    ensures DigitsValue(PadStart2(NatToString(n))) == n
  {
    var s := NatToString(n);
    if n < 10 {
      var p := PadStart2(s);
      assert p == "0" + s;
      assert p[..1] == "0";
      assert DigitsValue(p[..1]) == 0 by {
        assert p[..1][..0] == [];
      }
    }
  }

  /** Number of leading digits of `s`. */
  function DigitPrefixLength(s: string): (k: nat)
    ensures k <= |s|
    ensures AllDigits(s[..k])
    ensures k < |s| ==> !IsDigit(s[k])
  {
    if s == [] || !IsDigit(s[0]) then 0
    else
      var k := 1 + DigitPrefixLength(s[1..]);
      assert s[..k] == [s[0]] + s[1..][..k - 1];
      k
  }

  lemma {:induction false} DigitPrefixOfDigits(d: string, rest: string)
    requires AllDigits(d)
    requires rest == [] || !IsDigit(rest[0])
    ensures DigitPrefixLength(d + rest) == |d|
    decreases |d|
  {
    if d == [] {
      assert d + rest == rest;
    } else {
      assert (d + rest)[1..] == d[1..] + rest;
      DigitPrefixOfDigits(d[1..], rest);
    }
  }

  /** Reads the leading run of digits as a number; returns it with the rest of
      the text, or `None` when the text does not start with a digit. */
  function ScanNat(s: string): (r: Option<(nat, string)>)
    ensures r.Some? ==> |r.value.1| < |s|
  {
    var k := DigitPrefixLength(s);
    if k == 0 then None else Some((DigitsValue(s[..k]), s[k..]))
  }

  /** Scanning a written number back gives the number and leaves the rest. */
  lemma ScanDigits(d: string, rest: string)
    requires |d| >= 1 && AllDigits(d)
    requires rest == [] || !IsDigit(rest[0])
    ensures ScanNat(d + rest) == Some((DigitsValue(d), rest))
  {
    DigitPrefixOfDigits(d, rest);
    assert (d + rest)[..|d|] == d;
    assert (d + rest)[|d|..] == rest;
  }

  /** `parseFloat` on a plain decimal literal `ddd` or `ddd.ddd`; `None` for any
      other text (on which `parseFloat` may give a number or NaN). */
  function ParseDecimal(s: string): (r: Option<real>)
    ensures r.Some? ==> r.value >= 0.0
    ensures AllDigits(s) && |s| >= 1 ==> r == Some(DigitsValue(s) as real)
  {
    var k := DigitPrefixLength(s);
    if k == 0 then None
    else if k == |s| then Some(DigitsValue(s) as real)
    else if s[k] != '.' then None
    else
      var frac := s[k + 1..];
      if |frac| >= 1 && AllDigits(frac) then
        Some(DigitsValue(s[..k]) as real + DigitsValue(frac) as real / Pow10(|frac|) as real)
      else None
  }

  lemma DigitsConcat(a: string, b: string)
    requires AllDigits(a) && AllDigits(b)
    ensures AllDigits(a + b)
  {
    assert forall i :: 0 <= i < |a + b| ==> (a + b)[i] == if i < |a| then a[i] else b[i - |a|];
  }

  /** Reading digits `a` followed by digits `b` is reading `a`, shifted by the
      length of `b`, plus reading `b`. */
  lemma {:induction false} DigitsValueAppend(a: string, b: string)
    requires AllDigits(a) && AllDigits(b)
    ensures AllDigits(a + b)
    ensures DigitsValue(a + b) == DigitsValue(a) * Pow10(|b|) + DigitsValue(b)
    decreases |b|
  {
    DigitsConcat(a, b);
    if b == [] {
      assert a + b == a;
    } else {
      var b', c := b[..|b| - 1], b[|b| - 1];
      assert b == b' + [c];
      assert a + b == (a + b') + [c];
      DigitsValueAppend(a, b');
      DigitsValueSnoc(a + b', c);
      DigitsValueSnoc(b', c);
      Shift(DigitsValue(a), DigitsValue(b'), DigitValue(c), Pow10(|b'|));
    }
  }

  lemma DigitsValueSnoc(s: string, c: char)
    requires AllDigits(s) && IsDigit(c)
    ensures AllDigits(s + [c])
    ensures DigitsValue(s + [c]) == DigitsValue(s) * 10 + DigitValue(c)
  {
    assert (s + [c])[..|s|] == s;
  }

  lemma Shift(x: int, y: int, d: int, q: int)
    ensures (x * q + y) * 10 + d == x * (10 * q) + (y * 10 + d)
  {
  }

  /** Where the digit run of `i.f` ends and what follows it. */
  lemma DecimalParts(i: string, f: string)
    requires |i| >= 1 && AllDigits(i)
    ensures var s := i + ("." + f);
      DigitPrefixLength(s) == |i| && |i| < |s| && s[..|i|] == i && s[|i|] == '.' && s[|i| + 1..] == f
  {
    DigitPrefixOfDigits(i, "." + f);
    var s := i + ("." + f);
    assert s[..|i|] == i;
    assert s[|i| + 1..] == f;
  }

  /** `parseFloat` of `i.f`: the digits without the point, divided by ten to
      the number of fraction digits (so "0.0167" is 167 / 10000). */
  lemma DecimalLiteral(i: string, f: string) returns (s: string)
    requires |i| >= 1 && AllDigits(i)
    requires |f| >= 1 && AllDigits(f)
    ensures s == i + ("." + f) && AllDigits(i + f)
    ensures ParseDecimal(s) == Some(DigitsValue(i + f) as real / Pow10(|f|) as real)
  {
    s := DecimalPoint(i, f);
    DigitsValueAppend(i, f);
    ShiftedFraction(DigitsValue(i), DigitsValue(f), Pow10(|f|));
  }

  /** `parseFloat` of `i.f` reads the whole part and the fraction digits. */
  lemma DecimalPoint(i: string, f: string) returns (s: string)
    requires |i| >= 1 && AllDigits(i)
    requires |f| >= 1 && AllDigits(f)
    ensures s == i + ("." + f)
    ensures ParseDecimal(s) == Some(DigitsValue(i) as real + DigitsValue(f) as real / Pow10(|f|) as real)
  {
    DecimalParts(i, f);
    DecimalPointAt(i + ("." + f), |i|);
    s := i + ("." + f);
  }

  lemma DecimalPointAt(s: string, k: nat)
    requires DigitPrefixLength(s) == k && 0 < k < |s| && s[k] == '.'
    requires |s[k + 1..]| >= 1 && AllDigits(s[k + 1..])
    ensures ParseDecimal(s) == Some(DigitsValue(s[..k]) as real + DigitsValue(s[k + 1..]) as real / Pow10(|s[k + 1..]|) as real)
  {
  }

  lemma ShiftedFraction(x: nat, y: nat, q: nat)
    requires q >= 1
    ensures (x * q + y) as real / q as real == x as real + y as real / q as real
  {
    CastProduct(x, q);
    assert (x * q + y) as real == x as real * q as real + y as real;
  }

  lemma CastProduct(x: int, y: int)
    ensures (x * y) as real == x as real * y as real
  {
  }

  /** The form's one-minute option is 0.0167 hours. */
  lemma OneMinuteOption()
    ensures ParseDecimal("0.0167") == Some(0.0167)
  {
    OneMinuteDigits();
    var s := OneMinuteText();
  }

  lemma OneMinuteText() returns (s: string)
    ensures s == "0.0167" && AllDigits("00167")
    ensures ParseDecimal(s) == Some(DigitsValue("00167") as real / 10000.0)
  {
    s := DecimalLiteral("0", "0167");
    assert "0" + "0167" == "00167";
    assert Pow10(4) == 10000;
  }

  lemma OneMinuteDigits()
    ensures AllDigits("00167") && DigitsValue("00167") == 167
  {
    assert "00167"[..4] == "0016";
    assert "0016"[..3] == "001";
    assert "001"[..2] == "00";
    assert "00"[..1] == "0";
    assert "0"[..0] == "";
  }
}

=== FILE: handoffs.dfy ===
/** The trips between the two pages: the timer hands a paused or finished
    session to the session-detail page, which can hand it back. */
module Handoffs {
  import opened Options
  import opened Steps
  import opened Queries
  import opened Timer
  import opened SessionDetail
  import Allocation
  import TimeFormat

  /** "Continue" followed by the timer's start: the session comes back with
      its records, its original start and its total in seconds (hours times
      3600 undoes the division exactly); it resumes at the first uncompleted
      step with the completed steps' time already spent, and every step's
      goal is a quarter of the total. */
  lemma ContinueRestoresSession(d: DetailSession, nowMs: int)
    requires |d.records| == StepCount
    ensures var s := Start(Continue(d), nowMs);
      && s.resumed && s.totalTime == d.totalTime as real
      && s.records == d.records && s.startTime == d.startedAt
      && s.current == ResumeStep(d.records)
      && s.remaining == d.totalTime as real - CompletedTime(d.records) as real
      && s.subject == TextOr(Some(d.subject), DefaultSubject) && s.kind == TextOr(Some(d.kind), DefaultKind)
      && forall i :: 0 <= i < StepCount ==> s.goals[i] == d.totalTime as real / 4.0
  {
    var q := Continue(d);
    var explicit := ExplicitSeconds(q);
    Allocation.AllocationAllAutomatic(TotalSeconds(q), explicit);
  }

  /** What the session-detail page makes of a pause: the same subject, type,
      start and records, unfinished, with the total and the time left read
      back as whole seconds. */
  lemma PauseIsReadBack(s: Session, nowMs: int)
    ensures var v := Open(Pause(s), nowMs);
      && v.session.subject == TextOr(Some(s.subject), DefaultSubject)
      && v.session.kind == TextOr(Some(s.kind), DefaultKind)
      && v.session.startedAt == s.startTime && v.session.records == s.records
      && !v.session.finished
      && v.session.totalTime == TimeFormat.Trunc(s.totalTime)
      && v.elapsed == TimeFormat.Trunc(s.totalTime) - TimeFormat.Trunc(s.remaining)
  {
  }

  /** With whole-second totals and time left, the session-detail page shows
      the elapsed time the timer had. */
  lemma PausedElapsedIsExact(s: Session, nowMs: int)
    requires s.totalTime == s.totalTime.Floor as real && s.remaining == s.remaining.Floor as real
    ensures Open(Pause(s), nowMs).elapsed as real == Elapsed(s)
  {
    PauseIsReadBack(s, nowMs);
    TimeFormat.TruncWhole(s.totalTime);
    TimeFormat.TruncWhole(s.remaining);
  }

  /** With a fractional total the read-back can be off: 60.12 seconds (the
      form's "1분" option, 0.0167 hours) paused at 0.88 seconds of overtime
      shows 60 seconds elapsed where the timer had 61. */
  lemma FractionalTotalDrifts(s: Session, nowMs: int)
    requires s.totalTime == 60.12 && s.remaining == -0.88
    ensures Elapsed(s) == 61.0
    ensures Open(Pause(s), nowMs).elapsed == 60
  {
    PauseIsReadBack(s, nowMs);
    assert TimeFormat.Trunc(60.12) == 60;
    assert TimeFormat.Trunc(-0.88) == 0;
  }

  /** Pausing and continuing puts a consistent session back on the same step
      with the same records, still consistent; the time left restarts from
      the whole-second total less the completed steps' time. */
  lemma PauseThenContinue(s: Session, nowDetail: int, nowTimer: int)
    requires Consistent(s) && !s.finished
    ensures var t := Start(Continue(Open(Pause(s), nowDetail).session), nowTimer);
      && Consistent(t) && t.resumed
      && t.current == s.current && t.records == s.records && t.startTime == s.startTime
      && t.totalTime == TimeFormat.Trunc(s.totalTime) as real
      && t.remaining == TimeFormat.Trunc(s.totalTime) as real - CompletedTime(s.records) as real
  {
    var d := Open(Pause(s), nowDetail).session;
    PauseIsReadBack(s, nowDetail);
    ContinueRestoresSession(d, nowTimer);
    CurrentIsFirstUncompleted(s);
  }

  /** Completing the last step of a consistent session hands over a finished
      session whose elapsed time on the session-detail page is the last
      step's end time: the durations add up to the whole session. */
  lemma FinishShowsTotalDuration(s: Session, nowMs: int, nowDetail: int)
    requires Consistent(s) && !s.finished && s.current == StepCount - 1
    ensures var c := Complete(s, nowMs);
      && c.handoff.Some?
      && var v := Open(c.handoff.value, nowDetail);
      && v.session.finished
      && v.session.records == c.next.records
      && v.elapsed == SecondsSince(s, nowMs)
  {
    var c := Complete(s, nowMs);
    CompleteKeepsConsistent(s, nowMs);
    var rs := c.next.records;
    CompletedTimeIsPrefixDuration(rs);
    assert rs[StepCount - 1].endTime == Some(PrefixDuration(rs, StepCount));
  }
}

=== FILE: options.dfy ===
/** Optional values. In this model `None` stands for a JavaScript value that is
    `undefined`, or for a query parameter that is absent or the empty string
    (both are falsy, so the pages treat them alike). */
module Options {

  datatype Option<+T> = None | Some(value: T) {

    /** The value, or `default` when there is none (JavaScript's `x || default`
        and `x ?? default` on the cases the pages meet). */
    function GetOr(default: T): T {
      match this
      case Some(v) => v
      case None => default
    }
  }

  /** A query parameter read as text: the empty string counts as missing. */
  function NonEmpty(s: string): (r: Option<string>)
    ensures r.None? <==> s == ""
    ensures r.Some? ==> r.value == s
  {
    if s == "" then None else Some(s)
  }

  /** `text || default`: the default also replaces the empty string. */
  function TextOr(o: Option<string>, default: string): (s: string)
    ensures o.Some? && o.value != "" ==> s == o.value
    ensures o.None? || o.value == "" ==> s == default
  {
    if o.Some? && o.value != "" then o.value else default
  }
}

=== FILE: queries.dfy ===
/** The parameters each page reads from its URL query, already decoded: a
    `None` field is a key that is absent or has the empty string. The JSON
    `stepRecords` value is given by the outcome of decoding it. */
module Queries {
  import opened Options
  import opened Steps

  /** One value per step, in the order sketch, colour, detail, organise. */
  datatype Stages<T> = Stages(sketch: T, color: T, detail: T, organize: T) {
    function Items(): (xs: seq<T>)
      ensures |xs| == StepCount
      ensures xs[0] == sketch && xs[1] == color && xs[2] == detail && xs[3] == organize
    {
      [sketch, color, detail, organize]
    }
  }

  /** Query keys of the four stage times. */
  const StageKeys: Stages<string> := Stages("sketch", "color", "detail", "organize")

  /** The `stepRecords` parameter: missing (or empty), present but not valid
      JSON, or decoded to a list of records. */
  datatype RecordsParam = NoRecords | Malformed | Records(records: seq<StepRecord>)

  /** What the timer page reads: times in hours, `startedAt` in epoch
      milliseconds. */
  datatype TimerQuery = TimerQuery(
    subject: Option<string>,
    kind: Option<string>,
    totalHours: Option<real>,
    stageHours: Stages<Option<real>>,
    isPaused: Option<string>,
    records: RecordsParam,
    startedAt: Option<int>)

  /** What the session-detail page reads: `totalTime` and `remainingTime`
      in whole seconds (read with `parseInt`). */
  datatype DetailQuery = DetailQuery(
    subject: Option<string>,
    kind: Option<string>,
    startedAt: Option<int>,
    totalTime: Option<int>,
    isFinished: Option<string>,
    remainingTime: Option<int>,
    records: RecordsParam)

  /** Shown when the query carries no subject / session type. */
  const DefaultSubject: string := "풍경 그리기"
  const DefaultKind: string := "사고의 전환"
}

=== FILE: session_detail.dfy ===
/** The session-detail page: it reads a paused or finished session from its
    query, shows the elapsed time and the state of each step, and can send
    the session back to the timer ("continue"). */
module SessionDetail {
  import opened Options
  import opened Steps
  import opened Queries
  import TimeFormat

  /** Times are whole seconds, `startedAt` epoch milliseconds. */
  datatype DetailSession = DetailSession(
    subject: string,
    kind: string,
    startedAt: int,
    records: seq<StepRecord>,
    totalTime: int,
    finished: bool)

  /** A missing `stepRecords`, or one that is not valid JSON, gives the four
      fresh records. The decoded list is not checked further. */
  function DecodeRecords(p: RecordsParam): (rs: seq<StepRecord>)
    ensures p.Records? ==> rs == p.records
    ensures !p.Records? ==> rs == FreshRecords()
  {
    match p
    case Records(rs) => rs
    case _ => FreshRecords()
  }

  /** Reading the query; every missing value has a default, so this never
      fails. `nowMs` is `Date.now()`. */
  function Decode(q: DetailQuery, nowMs: int): (d: DetailSession)
    ensures d.subject == TextOr(q.subject, DefaultSubject) && d.subject != ""
    ensures d.kind == TextOr(q.kind, DefaultKind) && d.kind != ""
    ensures d.startedAt == q.startedAt.GetOr(nowMs)
    ensures d.totalTime == q.totalTime.GetOr(0)
    ensures d.finished <==> q.isFinished == Some("true")
    ensures d.records == DecodeRecords(q.records)
  {
    DetailSession(TextOr(q.subject, DefaultSubject), TextOr(q.kind, DefaultKind),
                  q.startedAt.GetOr(nowMs), DecodeRecords(q.records),
                  q.totalTime.GetOr(0), q.isFinished == Some("true"))
  }

  /** The elapsed time the page settles on. The first effect takes
      `totalTime - remainingTime` when `remainingTime` is given and the
      session is unfinished; the second then replaces it by the completed
      steps' time when the session is finished or `remainingTime` is
      missing. */
  function ElapsedTime(q: DetailQuery, d: DetailSession): int {
    var first := if q.remainingTime.Some? && !d.finished then d.totalTime - q.remainingTime.value else 0;
    if d.finished || q.remainingTime.None? then CompletedTime(d.records) else first
  }

  /** A finished session shows the time of its completed steps; an unfinished
      one the time the timer reported, or the completed steps' time when it
      reported none. */
  lemma ElapsedTimeCases(q: DetailQuery, d: DetailSession)
    ensures d.finished ==> ElapsedTime(q, d) == CompletedTime(d.records)
    ensures !d.finished && q.remainingTime.Some? ==> ElapsedTime(q, d) == d.totalTime - q.remainingTime.value
    ensures !d.finished && q.remainingTime.None? ==> ElapsedTime(q, d) == CompletedTime(d.records)
  {
  }

  /** The page as it settles after both effects. */
  datatype DetailView = DetailView(session: DetailSession, elapsed: int)

  function Open(q: DetailQuery, nowMs: int): (v: DetailView)
    ensures v.session == Decode(q, nowMs)
    ensures v.elapsed == ElapsedTime(q, v.session)
  {
    var d := Decode(q, nowMs);
    DetailView(d, ElapsedTime(q, d))
  }

  /** A finished session that ran over its total shows the overrun next to
      the elapsed time (`+H시간 M분`). */
  function OvertimeNote(v: DetailView): (note: Option<string>)
    ensures note.Some? <==> v.session.finished && v.elapsed > v.session.totalTime
    ensures note.Some? ==>
      TimeFormat.ParseHoursMinutes(note.value) == Some((v.elapsed - v.session.totalTime) / 60)
  {
    if v.session.finished && v.elapsed > v.session.totalTime then
      var over := (v.elapsed - v.session.totalTime) as real;
      TimeFormat.FormatTimeWithHoursRoundTrip(over);
      Some(TimeFormat.FormatTimeWithHours(over))
    else None
  }

  datatype RowStatus = Done | InProgress | Waiting

  /** The state shown for step `idx`: done once it has an end time; the first
      record without one is in progress while the session is unfinished;
      every other step is waiting. */
  function RowStatusAt(d: DetailSession, idx: nat): RowStatus
    requires idx < |d.records|
  {
    if Completed(d.records[idx]) then Done
    else if !d.finished && idx == FindUncompleted(d.records) then InProgress
    else Waiting
  }

  /** A row is in progress exactly when the session is unfinished and it is
      the first record without an end time. */
  lemma InProgressIsFirstUncompleted(d: DetailSession, idx: nat)
    requires idx < |d.records|
    ensures RowStatusAt(d, idx) == InProgress <==>
      !d.finished && !Completed(d.records[idx]) && forall j :: 0 <= j < idx ==> Completed(d.records[j])
  {
    var k := FindUncompleted(d.records);
    if !d.finished && !Completed(d.records[idx]) && forall j :: 0 <= j < idx ==> Completed(d.records[j]) {
      assert k != -1;
      assert !(k < idx);
      assert !(k > idx);
    }
  }

  /** At most one row is in progress, and none once the session is finished. */
  lemma AtMostOneInProgress(d: DetailSession, i: nat, j: nat)
    requires i < |d.records| && j < |d.records|
    ensures RowStatusAt(d, i) == InProgress && RowStatusAt(d, j) == InProgress ==> i == j
    ensures d.finished ==> RowStatusAt(d, i) != InProgress
  {
  }

  /** "Continue": back to the timer with the total in hours, the records and
      the original start, flagged as paused. No stage times are sent. */
  function Continue(d: DetailSession): (q: TimerQuery)
    ensures q.isPaused == Some("true") && q.records == Records(d.records) && q.startedAt == Some(d.startedAt)
    ensures q.totalHours.Some? && q.totalHours.value * 3600.0 == d.totalTime as real
    ensures q.stageHours == Stages(None, None, None, None)
    ensures TextOr(q.subject, DefaultSubject) == TextOr(Some(d.subject), DefaultSubject)
    ensures TextOr(q.kind, DefaultKind) == TextOr(Some(d.kind), DefaultKind)
  {
    TimerQuery(NonEmpty(d.subject), NonEmpty(d.kind), Some(d.totalTime as real / 3600.0),
               Stages(None, None, None, None), Some("true"), Records(d.records), Some(d.startedAt))
  }
}

=== FILE: session_setup.dfy ===
/** The setup page: the form's values become the timer's query, once the
    three required fields are filled in. */
module SessionSetup {
  import opened Options
  import opened Queries
  import Digits
  import Timer
  import Allocation

  /** The form as the page holds it: every value is the text of an input or
      of a chosen option; a stage's "자동" (automatic) option is "". */
  datatype SetupForm = SetupForm(subject: string, kind: string, totalTime: string, stages: Stages<string>)

  /** `subject && type && totalTime`: the start button is enabled. */
  predicate IsFormValid(f: SetupForm) {
    f.subject != "" && f.kind != "" && f.totalTime != ""
  }

  /** `handleStart`: `None` when a required field is empty (an alert, no
      navigation); otherwise the query for the timer page, carrying all seven
      keys, stage times included even when empty. */
  function StartQuery(f: SetupForm): (q: Option<map<string, string>>)
    ensures q.Some? <==> !(f.subject == "" || f.kind == "" || f.totalTime == "")
    ensures q.Some? ==>
      q.value.Keys == {"subject", "type", "totalTime", StageKeys.sketch, StageKeys.color, StageKeys.detail, StageKeys.organize}
    ensures q.Some? ==> q.value["subject"] == f.subject && q.value["type"] == f.kind && q.value["totalTime"] == f.totalTime
    ensures q.Some? ==>
      && q.value[StageKeys.sketch] == f.stages.sketch && q.value[StageKeys.color] == f.stages.color
      && q.value[StageKeys.detail] == f.stages.detail && q.value[StageKeys.organize] == f.stages.organize
  {
    if f.subject == "" || f.kind == "" || f.totalTime == "" then None
    else Some(map[
      "subject" := f.subject, "type" := f.kind, "totalTime" := f.totalTime,
      StageKeys.sketch := f.stages.sketch, StageKeys.color := f.stages.color,
      StageKeys.detail := f.stages.detail, StageKeys.organize := f.stages.organize])
  }

  /** The button is enabled exactly when starting navigates. */
  lemma StartsIffValid(f: SetupForm)
    ensures StartQuery(f).Some? <==> IsFormValid(f)
  {
  }

  /** Every time the form offers is a plain decimal or "". */
  predicate OfferedTimes(f: SetupForm) {
    && Digits.ParseDecimal(f.totalTime).Some?
    && (f.stages.sketch == "" || Digits.ParseDecimal(f.stages.sketch).Some?)
    && (f.stages.color == "" || Digits.ParseDecimal(f.stages.color).Some?)
    && (f.stages.detail == "" || Digits.ParseDecimal(f.stages.detail).Some?)
    && (f.stages.organize == "" || Digits.ParseDecimal(f.stages.organize).Some?)
  }

  /** The timer reads back the form: subject and type as typed, the total
      in hours, and a stage left on "자동" as automatic. */
  lemma TimerReadsForm(f: SetupForm)
    requires IsFormValid(f) && OfferedTimes(f)
    ensures Timer.ReadableQuery(StartQuery(f).value)
    ensures var q := Timer.ReadQuery(StartQuery(f).value, NoRecords);
      && q.subject == Some(f.subject) && q.kind == Some(f.kind)
      && q.totalHours == Digits.ParseDecimal(f.totalTime)
      && (q.stageHours.sketch.None? <==> f.stages.sketch == "")
      && (q.stageHours.color.None? <==> f.stages.color == "")
      && (q.stageHours.detail.None? <==> f.stages.detail == "")
      && (q.stageHours.organize.None? <==> f.stages.organize == "")
      && (f.stages.sketch != "" ==> q.stageHours.sketch == Digits.ParseDecimal(f.stages.sketch))
      && (f.stages.color != "" ==> q.stageHours.color == Digits.ParseDecimal(f.stages.color))
      && (f.stages.detail != "" ==> q.stageHours.detail == Digits.ParseDecimal(f.stages.detail))
      && (f.stages.organize != "" ==> q.stageHours.organize == Digits.ParseDecimal(f.stages.organize))
      && q.isPaused.None? && q.startedAt.None?
  {
  }

  /** A stage time chosen on the form is that step's goal on the timer: its
      hours times 3600 seconds, whatever the total and the other stages. */
  lemma FormStageGoal(f: SetupForm, nowMs: int, i: nat)
    requires IsFormValid(f) && OfferedTimes(f)
    requires i < 4 && f.stages.Items()[i] != ""
    ensures Digits.ParseDecimal(f.stages.Items()[i]).Some?
    ensures Timer.Start(Timer.ReadQuery(StartQuery(f).value, NoRecords), nowMs).goals[i]
      == Digits.ParseDecimal(f.stages.Items()[i]).value * 3600.0
  {
    TimerReadsForm(f);
    var q := Timer.ReadQuery(StartQuery(f).value, NoRecords);
    assert q.stageHours.Items()[i] == Digits.ParseDecimal(f.stages.Items()[i]);
    Timer.ExplicitGoal(q, i);
  }

  /** One hour with every stage on automatic: 3600 seconds in all and 900
      for each step. */
  lemma OneHourAutomatic(subject: string, kind: string, nowMs: int)
    requires subject != "" && kind != ""
    ensures var f := SetupForm(subject, kind, "1", Stages("", "", "", ""));
      var s := Timer.Start(Timer.ReadQuery(StartQuery(f).value, NoRecords), nowMs);
      && s.totalTime == 3600.0
      && s.goals == [900.0, 900.0, 900.0, 900.0]
      && s.current == 0 && !s.resumed && s.remaining == 3600.0
  {
    var f := SetupForm(subject, kind, "1", Stages("", "", "", ""));
    assert Digits.AllDigits("1");
    assert Digits.DigitsValue("1") == 1 by {
      assert "1"[..0] == [];
    }
    TimerReadsForm(f);
    var q := Timer.ReadQuery(StartQuery(f).value, NoRecords);
    assert q.totalHours == Some(1.0);
    assert Timer.TotalSeconds(q) == 3600.0;
    var explicit := Timer.ExplicitSeconds(q);
    Allocation.AllocationAllAutomatic(3600.0, explicit);
  }

  /** The total a form sends is its total in hours times 3600 seconds. */
  lemma FormTotalSeconds(f: SetupForm, nowMs: int)
    requires IsFormValid(f) && OfferedTimes(f)
    ensures Timer.Start(Timer.ReadQuery(StartQuery(f).value, NoRecords), nowMs).totalTime
      == Digits.ParseDecimal(f.totalTime).value * 3600.0
  {
    TimerReadsForm(f);
  }

  /** The "1분" option, 0.0167 hours, gives the timer 60.12 seconds rather
      than 60. */
  lemma OneMinuteOptionSeconds(f: SetupForm, nowMs: int)
    requires IsFormValid(f) && OfferedTimes(f) && f.totalTime == "0.0167"
    ensures Timer.Start(Timer.ReadQuery(StartQuery(f).value, NoRecords), nowMs).totalTime == 60.12
  {
    Digits.OneMinuteOption();
    FormTotalSeconds(f, nowMs);
  }
}

=== FILE: slack_format.dfy ===
/** The two pure text helpers of the Slack notifier: a duration in hours and
    minutes, and the summary of the stage times chosen at setup. */
module SlackFormat {
  import opened Options
  import opened Steps
  import opened Queries
  import opened Digits
  import TimeFormat

  /** `formatDuration`: `H시간 M분` from one hour up, `M분` below. */
  function FormatDuration(seconds: real): string {
    var hours := (seconds / 3600.0).Floor;
    var minutes := (TimeFormat.JsRem(seconds, 3600) / 60.0).Floor;
    if hours > 0 then IntToString(hours) + ("시간 " + (IntToString(minutes) + "분"))
    else IntToString(minutes) + "분"
  }

  /** The notifier's `formatDuration` and the pages' `formatTimeWithHours` are
      the same function. */
  lemma FormatDurationIsFormatTimeWithHours(seconds: real)
    ensures FormatDuration(seconds) == TimeFormat.FormatTimeWithHours(seconds)
  {
  }

  /** `Math.round`: halves round up. */
  function Round(x: real): (n: int)
    ensures n as real - 0.5 <= x < n as real + 0.5
  {
    (x + 0.5).Floor
  }

  /** A stage is listed when its time is given and not zero (truthy). */
  predicate Listed(hours: Option<real>) {
    hours.Some? && hours.value != 0.0
  }

  /** `스케치 N분`: the stage name and its time in whole minutes. */
  function StageEntry(i: nat, hours: real): (e: string)
    requires i < StepCount
  {
    StepNames[i] + " " + MinutesText(hours) + "분"
  }

  /** Hours shown as whole minutes: `Math.round(hours * 60)`. */
  function MinutesText(hours: real): string {
    IntToString(Round(hours * 60.0))
  }

  /** An entry starts with its stage name, so it never starts like "자동 분배". */
  lemma EntryStartsWithName(i: nat, hours: real)
    requires i < StepCount
    ensures |StepNames[i]| <= |StageEntry(i, hours)| && StageEntry(i, hours)[..|StepNames[i]|] == StepNames[i]
    ensures |StageEntry(i, hours)| > 0 && StageEntry(i, hours)[0] == StepNames[i][0] != '자'
  {
  }

  /** The entries for the listed stages, pushed in the order sketch, colour,
      detail, organise. */
  function Entries(st: Stages<Option<real>>): seq<string> {
    var items := st.Items();
    EntryAt(items, 0) + EntryAt(items, 1) + EntryAt(items, 2) + EntryAt(items, 3)
  }

  /** The entry stage `i` contributes: one when it is listed, none otherwise. */
  function EntryAt(items: seq<Option<real>>, i: nat): seq<string>
    requires i < |items| == StepCount
  {
    if Listed(items[i]) then [StageEntry(i, items[i].value)] else []
  }

  /** Indices `i` from `from` up whose stage is listed, in increasing order. */
  function ListedFrom(items: seq<Option<real>>, from: nat): (ix: seq<nat>)
    requires from <= |items|
    ensures forall k :: 0 <= k < |ix| ==> from <= ix[k] < |items| && Listed(items[ix[k]])
    ensures forall k, l :: 0 <= k < l < |ix| ==> ix[k] < ix[l]
    ensures forall i :: from <= i < |items| && Listed(items[i]) ==> i in ix
    decreases |items| - from
  {
    if from == |items| then []
    else if Listed(items[from]) then [from] + ListedFrom(items, from + 1)
    else ListedFrom(items, from + 1)
  }

  /** The entries of the listed stages from index `from` on. */
  function EntriesFrom(items: seq<Option<real>>, from: nat): seq<string>
    requires from <= |items| == StepCount
    decreases |items| - from
  {
    if from == |items| then []
    else EntryAt(items, from) + EntriesFrom(items, from + 1)
  }

  /** `es` are the entries of the stages at indices `ix`, one for one. */
  ghost predicate EntriesMatch(items: seq<Option<real>>, es: seq<string>, ix: seq<nat>) {
    && |items| == StepCount
    && |es| == |ix|
    && forall k :: 0 <= k < |ix| ==>
        ix[k] < |items| && Listed(items[ix[k]]) && es[k] == StageEntry(ix[k], items[ix[k]].value)
  }

  lemma MatchCons(items: seq<Option<real>>, i: nat, es: seq<string>, ix: seq<nat>)
    requires EntriesMatch(items, es, ix)
    requires i < |items| && Listed(items[i])
    ensures EntriesMatch(items, [StageEntry(i, items[i].value)] + es, [i] + ix)
  {
    var es', ix' := [StageEntry(i, items[i].value)] + es, [i] + ix;
    forall k | 0 <= k < |ix'|
      ensures ix'[k] < |items| && Listed(items[ix'[k]]) && es'[k] == StageEntry(ix'[k], items[ix'[k]].value)
    {
      if k > 0 {
        assert es'[k] == es[k - 1] && ix'[k] == ix[k - 1];
      }
    }
  }

  lemma {:induction false} EntriesFromListed(items: seq<Option<real>>, from: nat)
    requires from <= |items| == StepCount
    ensures EntriesMatch(items, EntriesFrom(items, from), ListedFrom(items, from))
    decreases |items| - from
  {
    if from < |items| {
      EntriesFromListed(items, from + 1);
      var rest, restIx := EntriesFrom(items, from + 1), ListedFrom(items, from + 1);
      if Listed(items[from]) {
        MatchCons(items, from, rest, restIx);
      } else {
        assert EntriesFrom(items, from) == [] + rest;
      }
    }
  }

  lemma EntriesAreEntriesFrom(st: Stages<Option<real>>)
    ensures Entries(st) == EntriesFrom(st.Items(), 0)
  {
    var items := st.Items();
    var a0, a1, a2, a3 := EntryAt(items, 0), EntryAt(items, 1), EntryAt(items, 2), EntryAt(items, 3);
    assert EntriesFrom(items, 3) == a3 + [] == a3;
    assert EntriesFrom(items, 2) == a2 + a3;
    assert EntriesFrom(items, 1) == a1 + (a2 + a3);
    assert EntriesFrom(items, 0) == a0 + (a1 + (a2 + a3)) == a0 + a1 + a2 + a3;
  }

  /** The entries are exactly those of the listed stages, in stage order,
      each showing that stage's minutes. */
  lemma EntriesFollowStageOrder(st: Stages<Option<real>>)
    ensures var ix := ListedFrom(st.Items(), 0);
      && |Entries(st)| == |ix|
      && forall k :: 0 <= k < |ix| ==> ix[k] < StepCount && Entries(st)[k] == StageEntry(ix[k], st.Items()[ix[k]].value)
  {
    EntriesAreEntriesFrom(st);
    EntriesFromListed(st.Items(), 0);
  }

  /** `xs.join(sep)`. */
  function Join(xs: seq<string>, sep: string): (r: string)
    ensures xs != [] ==> |xs[0]| <= |r| && r[..|xs[0]|] == xs[0]
    ensures |xs| == 1 ==> r == xs[0]
  {
    if xs == [] then ""
    else if |xs| == 1 then xs[0]
    else xs[0] + sep + Join(xs[1..], sep)
  }

  /** Joining builds up left to right: one more entry adds the separator and
      the entry at the end. */
  lemma {:induction false} JoinSnoc(xs: seq<string>, x: string, sep: string)
    requires xs != []
    ensures Join(xs + [x], sep) == Join(xs, sep) + sep + x
    decreases |xs|
  {
    if |xs| > 1 {
      assert (xs + [x])[1..] == xs[1..] + [x];
      JoinSnoc(xs[1..], x, sep);
    } else {
      assert (xs + [x])[1..] == [x];
    }
  }

  const AutoSplit: string := "자동 분배"

  /** `formatStageTimes`: "자동 분배" (automatic) when no stage times were
      given or none is listed, otherwise the entries joined by " / ". */
  function FormatStageTimes(st: Option<Stages<Option<real>>>): (r: string)
    ensures r == AutoSplit <==> st.None? || Entries(st.value) == []
    ensures st.Some? && Entries(st.value) != [] ==> r == Join(Entries(st.value), " / ")
  {
    if st.None? then AutoSplit
    else
      var joined := Join(Entries(st.value), " / ");
      if joined == "" then AutoSplit
      else
        assert joined[0] != AutoSplit[0] by {
          EntriesFollowStageOrder(st.value);
          var ix := ListedFrom(st.value.Items(), 0);
          EntryStartsWithName(ix[0], st.value.Items()[ix[0]].value);
        }
        joined
  }

  /** No listed stage: the summary says the time is split automatically. */
  lemma NothingListedMeansAutomatic(st: Stages<Option<real>>)
    requires !Listed(st.sketch) && !Listed(st.color) && !Listed(st.detail) && !Listed(st.organize)
    ensures FormatStageTimes(Some(st)) == AutoSplit
  {
  }
}

=== FILE: steps.dfy ===
/** Step records: the four phases of a drawing session and what is recorded
    when each one is completed. */
module Steps {
  import opened Options

  /** `endTime` is seconds since the session started; `duration` is seconds
      spent on the step. Both are `None` until the step is completed. */
  datatype StepRecord = StepRecord(name: string, endTime: Option<int>, duration: Option<int>)

  const StepCount: nat := 4

  /** Step names in session order: sketch, colour, detail, organise. */
  const StepNames: seq<string> := ["스케치", "채색", "묘사", "정리"]

  /** Four records with only the names set, as both pages build them when
      there is nothing to restore. */
  function FreshRecords(): (rs: seq<StepRecord>)
    ensures |rs| == StepCount
    ensures forall i :: 0 <= i < |rs| ==> rs[i].name == StepNames[i] && rs[i].endTime.None? && rs[i].duration.None?
  {
    seq(StepCount, i requires 0 <= i < StepCount => StepRecord(StepNames[i], None, None))
  }

  predicate Completed(r: StepRecord) {
    r.endTime.Some?
  }

  /** `records.findIndex(step => step.endTime === undefined)`: the first
      uncompleted record, or -1 when every record is completed. */
  function FindUncompleted(rs: seq<StepRecord>): (k: int)
    ensures -1 <= k < |rs|
    ensures k == -1 <==> forall i :: 0 <= i < |rs| ==> Completed(rs[i])
    ensures k >= 0 ==> !Completed(rs[k]) && forall i :: 0 <= i < k ==> Completed(rs[i])
  {
    if rs == [] then -1
    else if !Completed(rs[0]) then 0
    else
      var k := FindUncompleted(rs[1..]);
      if k == -1 then -1 else k + 1
  }

  /** A missing duration counts as zero (`step.duration || 0`). */
  function DurationOrZero(r: StepRecord): int {
    r.duration.GetOr(0)
  }

  /** Sum of the durations of the completed records
      (`filter(endTime !== undefined).reduce(acc + (duration || 0))`). */
  function CompletedTime(rs: seq<StepRecord>): int {
    if rs == [] then 0
    else CompletedTime(rs[..|rs| - 1]) + (if Completed(rs[|rs| - 1]) then DurationOrZero(rs[|rs| - 1]) else 0)
  }

  /** Sum of the durations of the first `k` records, completed or not
      (`slice(0, k).reduce(acc + (duration || 0))`). */
  function PrefixDuration(rs: seq<StepRecord>, k: nat): int
    requires k <= |rs|
  {
    if k == 0 then 0 else PrefixDuration(rs, k - 1) + DurationOrZero(rs[k - 1])
  }

  /** When no uncompleted record carries a duration, the two sums agree. */
  lemma {:induction false} CompletedTimeIsPrefixDuration(rs: seq<StepRecord>)
    requires forall i :: 0 <= i < |rs| && !Completed(rs[i]) ==> rs[i].duration.None?
    ensures CompletedTime(rs) == PrefixDuration(rs, |rs|)
  {
    if rs != [] {
      var init := rs[..|rs| - 1];
      CompletedTimeIsPrefixDuration(init);
      PrefixDurationOfPrefix(rs, |rs| - 1, |rs| - 1);
    }
  }

  /** The first `k` durations only depend on the first `k` records. */
  lemma {:induction false} PrefixDurationOfPrefix(rs: seq<StepRecord>, j: nat, k: nat)
    requires k <= j <= |rs|
    ensures PrefixDuration(rs[..j], k) == PrefixDuration(rs, k)
    decreases k
  {
    if k > 0 {
      PrefixDurationOfPrefix(rs, j, k - 1);
    }
  }

  /** Changing a record at or after position `k` leaves the first `k`
      durations alone. */
  lemma {:induction false} PrefixDurationUnchanged(rs: seq<StepRecord>, j: nat, r: StepRecord, k: nat)
    requires j < |rs| && k <= j
    ensures PrefixDuration(rs[j := r], k) == PrefixDuration(rs, k)
  {
    if k > 0 {
      PrefixDurationUnchanged(rs, j, r, k - 1);
    }
  }
}

=== FILE: time_format.dfy ===
/** The two clock formatters that both the timer page and the session-detail
    page define (identically), working on JavaScript numbers: `Math.floor`
    rounds down and `%` keeps the sign of the dividend. */
module TimeFormat {
  import opened Options
  import opened Digits

  /** `parseInt(x.toString())` on a plain decimal: the text loses its
      fraction, so the value is rounded toward zero. */
  function Trunc(x: real): (t: int)
    ensures x >= 0.0 ==> t == x.Floor && t as real <= x < t as real + 1.0
    ensures x < 0.0 ==> t as real - 1.0 < x <= t as real && t <= 0
  {
    if x >= 0.0 then x.Floor else -((-x).Floor)
  }

  /** Truncation is symmetric about zero: `-0.88` reads back as `0`, not `-1`. */
  lemma TruncNegate(x: real)
    ensures Trunc(-x) == -Trunc(x)
  {
  }

  /** A whole number is its own truncation. */
  lemma TruncWhole(x: real)
    requires x == x.Floor as real
    ensures Trunc(x) as real == x
  {
    if x < 0.0 {
      var n := x.Floor;
      assert -x == (-n) as real;
      assert (-x).Floor == -n;
    }
  }

  /** JavaScript's `x % d` for a positive whole `d`. */
  function JsRem(x: real, d: nat): real
    requires d > 0
  {
    x - d as real * Trunc(x / d as real) as real
  }

  /** The three fields `formatTime` shows: hours, minutes, seconds. */
  datatype Clock = Clock(hours: int, minutes: int, seconds: int)

  function ClockOf(s: real): Clock {
    Clock((s / 3600.0).Floor, (JsRem(s, 3600) / 60.0).Floor, JsRem(s, 60).Floor)
  }

  /** Dividing a non-negative time by a whole number and rounding down is
      integer division of its whole part. */
  lemma FloorDivision(s: real, d: nat)
    requires s >= 0.0 && (d == 60 || d == 3600)
    ensures (s / d as real).Floor == s.Floor / d
    ensures Trunc(s / d as real) == s.Floor / d
  {
    var n, q := s.Floor, s.Floor / d;
    assert d * q <= n < d * q + d;
    if d == 60 {
      assert 60.0 * q as real <= s < 60.0 * q as real + 60.0;
    } else {
      assert 3600.0 * q as real <= s < 3600.0 * q as real + 3600.0;
    }
  }

  /** `%` on a non-negative time keeps the fraction and reduces the whole part. */
  lemma RemainderOfTime(s: real, d: nat)
    requires s >= 0.0 && (d == 60 || d == 3600)
    ensures JsRem(s, d) == s - (d * (s.Floor / d)) as real
    ensures JsRem(s, d) >= 0.0 && JsRem(s, d).Floor == s.Floor % d
  {
    FloorDivision(s, d);
    var t := JsRem(s, d);
    var k := s.Floor / d;
    assert t == s - (d * k) as real;
    assert t.Floor == s.Floor - d * k;
  }

  /** Whole seconds split into hours, minutes of the hour and seconds of the
      minute add back up. */
  lemma MixedRadix(n: nat)
    ensures (n % 3600) / 60 < 60 && (n % 3600) % 60 == n % 60
    ensures n == 3600 * (n / 3600) + 60 * ((n % 3600) / 60) + n % 60
  {
    var h, r := n / 3600, n % 3600;
    assert n == 3600 * h + r && 0 <= r < 3600;
    var m, sec := r / 60, r % 60;
    assert r == 60 * m + sec && 0 <= sec < 60;
    assert n == 60 * (60 * h + m) + sec;
  }

  /** For a non-negative time the fields are the mixed-radix digits of the
      whole seconds: minutes and seconds in 0..59, and they add back up. */
  lemma ClockOfNonNegative(s: real)
    requires s >= 0.0
    ensures var c := ClockOf(s); var n := s.Floor;
      && c.hours == n / 3600
      && c.minutes == (n % 3600) / 60
      && c.seconds == n % 60
      && 0 <= c.minutes < 60 && 0 <= c.seconds < 60 && c.hours >= 0
      && n == 3600 * c.hours + 60 * c.minutes + c.seconds
  {
    var n := s.Floor;
    FloorDivision(s, 3600);
    RemainderOfTime(s, 3600);
    var t := JsRem(s, 3600);
    FloorDivision(t, 60);
    assert (t / 60.0).Floor == (n % 3600) / 60;
    RemainderOfTime(s, 60);
    assert JsRem(s, 60).Floor == n % 60;
    MixedRadix(n);
    assert ClockOf(s) == Clock(n / 3600, (n % 3600) / 60, n % 60);
  }

  /** `formatTime`: `H:MM:SS` from one hour up, `M:SS` below. */
  function FormatTime(s: real): string {
    ShowClock(ClockOf(s))
  }

  function ShowClock(c: Clock): string {
    if c.hours > 0 then
      IntToString(c.hours) + (":" + (PadStart2(IntToString(c.minutes)) + (":" + PadStart2(IntToString(c.seconds)))))
    else
      IntToString(c.minutes) + (":" + PadStart2(IntToString(c.seconds)))
  }

  /** The long form `H:MM:SS`. */
  function ClockText(h: nat, m: nat, sec: nat): string {
    NatToString(h) + (":" + (PadStart2(NatToString(m)) + (":" + PadStart2(NatToString(sec)))))
  }

  /** The short form `M:SS`. */
  function MinuteText(m: nat, sec: nat): string {
    NatToString(m) + (":" + PadStart2(NatToString(sec)))
  }

  /** On a non-negative time `formatTime` shows hours only from 3600 seconds
      up; minutes and seconds are two-digit fields in 0..59. */
  lemma FormatTimeFields(s: real)
    requires s >= 0.0
    ensures var n := s.Floor;
      && (n >= 3600 ==> FormatTime(s) == ClockText(n / 3600, (n % 3600) / 60, n % 60))
      && (n < 3600 ==> FormatTime(s) == MinuteText(n / 60, n % 60))
      && |PadStart2(NatToString((n % 3600) / 60))| == 2 && (n % 3600) / 60 < 60
      && |PadStart2(NatToString(n % 60))| == 2 && n % 60 < 60
  {
    var n := s.Floor;
    ClockOfNonNegative(s);
    ShowClockText(ClockOf(s));
    TwoDigitField((n % 3600) / 60);
    TwoDigitField(n % 60);
  }

  /** Reads digit runs separated by colons. */
  function Fields(t: string): Option<seq<nat>>
    decreases |t|
  {
    match ScanNat(t)
    case None => None
    case Some((a, rest)) =>
      if rest == [] then Some([a])
      else if rest[0] != ':' then None
      else match Fields(rest[1..])
        case None => None
        case Some(fs) => Some([a] + fs)
  }

  /** Reads `M:SS` or `H:MM:SS` back to whole seconds. */
  function ParseClock(t: string): Option<int> {
    match Fields(t)
    case None => None
    case Some(fs) =>
      if |fs| == 2 then Some(fs[0] * 60 + fs[1])
      else if |fs| == 3 then Some((fs[0] * 60 + fs[1]) * 60 + fs[2])
      else None
  }

  lemma LastField(d: string)
    requires |d| >= 1 && AllDigits(d)
    ensures Fields(d) == Some([DigitsValue(d)])
  {
    ScanDigits(d, []);
    assert d + [] == d;
  }

  lemma NextField(d: string, x: string, fs: seq<nat>)
    requires |d| >= 1 && AllDigits(d)
    requires Fields(x) == Some(fs)
    ensures Fields(d + (":" + x)) == Some([DigitsValue(d)] + fs)
  {
    assert (":" + x)[1..] == x;
    ScanDigits(d, ":" + x);
  }

  /** Three digit runs separated by colons read back as hours, minutes and
      seconds. */
  lemma ParseThreeFields(hh: string, mm: string, ss: string) returns (t: string)
    requires |hh| >= 1 && AllDigits(hh)
    requires |mm| >= 1 && AllDigits(mm)
    requires |ss| >= 1 && AllDigits(ss)
    ensures t == hh + (":" + (mm + (":" + ss)))
    ensures ParseClock(t) == Some((DigitsValue(hh) * 60 + DigitsValue(mm)) * 60 + DigitsValue(ss))
  {
    var fs;
    t, fs := ThreeFields(hh, mm, ss);
    ClockFromFields(t, fs);
  }

  lemma ThreeFields(hh: string, mm: string, ss: string) returns (t: string, fs: seq<nat>)
    requires |hh| >= 1 && AllDigits(hh)
    requires |mm| >= 1 && AllDigits(mm)
    requires |ss| >= 1 && AllDigits(ss)
    ensures t == hh + (":" + (mm + (":" + ss)))
    ensures fs == [DigitsValue(hh), DigitsValue(mm), DigitsValue(ss)] && Fields(t) == Some(fs)
  {
    LastField(ss);
    var f2 := [DigitsValue(ss)];
    NextField(mm, ss, f2);
    var f1 := [DigitsValue(mm)] + f2;
    NextField(hh, mm + (":" + ss), f1);
    t := hh + (":" + (mm + (":" + ss)));
    fs := [DigitsValue(hh)] + f1;
  }

  /** Two digit runs separated by a colon read back as minutes and seconds. */
  lemma ParseTwoFields(mm: string, ss: string) returns (t: string)
    requires |mm| >= 1 && AllDigits(mm)
    requires |ss| >= 1 && AllDigits(ss)
    ensures t == mm + (":" + ss)
    ensures ParseClock(t) == Some(DigitsValue(mm) * 60 + DigitsValue(ss))
  {
    LastField(ss);
    NextField(mm, ss, [DigitsValue(ss)]);
    t := mm + (":" + ss);
    ClockFromFields(t, [DigitsValue(mm)] + [DigitsValue(ss)]);
  }

  lemma ClockFromFields(t: string, fs: seq<nat>)
    requires Fields(t) == Some(fs)
    ensures |fs| == 2 ==> ParseClock(t) == Some(fs[0] * 60 + fs[1])
    ensures |fs| == 3 ==> ParseClock(t) == Some((fs[0] * 60 + fs[1]) * 60 + fs[2])
  {
  }

  /** The text of a clock with minutes and seconds in range reads back as its
      total seconds. */
  lemma ShowClockReadsBack(c: Clock)
    requires c.hours >= 0 && 0 <= c.minutes < 60 && 0 <= c.seconds < 60
    ensures ParseClock(ShowClock(c)) == Some(3600 * c.hours + 60 * c.minutes + c.seconds)
  {
    ShowClockText(c);
    if c.hours > 0 {
      LongClockReadsBack(c.hours, c.minutes, c.seconds);
    } else {
      ShortClockReadsBack(c.minutes, c.seconds);
    }
  }

  /** With whole non-negative fields the clock text is written without signs. */
  lemma ShowClockText(c: Clock)
    requires c.hours >= 0 && c.minutes >= 0 && c.seconds >= 0
    ensures c.hours > 0 ==> ShowClock(c) == ClockText(c.hours, c.minutes, c.seconds)
    ensures c.hours == 0 ==> ShowClock(c) == MinuteText(c.minutes, c.seconds)
  {
  }

  lemma LongClockReadsBack(h: nat, m: nat, sec: nat)
    requires m < 60 && sec < 60
    ensures ParseClock(ClockText(h, m, sec)) == Some(3600 * h + 60 * m + sec)
  {
    TwoDigitField(m);
    TwoDigitField(sec);
    var t := ParseThreeFields(NatToString(h), PadStart2(NatToString(m)), PadStart2(NatToString(sec)));
  }

  lemma ShortClockReadsBack(m: nat, sec: nat)
    requires sec < 60
    ensures ParseClock(MinuteText(m, sec)) == Some(60 * m + sec)
  {
    TwoDigitField(sec);
    var t := ParseTwoFields(NatToString(m), PadStart2(NatToString(sec)));
  }

  /** `formatTime` loses nothing but the fraction of a second. */
  lemma FormatTimeRoundTrip(s: real)
    requires s >= 0.0
    ensures ParseClock(FormatTime(s)) == Some(s.Floor)
  {
    ClockOfNonNegative(s);
    ShowClockReadsBack(ClockOf(s));
  }

  /** `formatTimeWithHours`: `H시간 M분` from one hour up, `M분` below. */
  function FormatTimeWithHours(s: real): string {
    ShowHours(ClockOf(s))
  }

  function ShowHours(c: Clock): string {
    if c.hours > 0 then IntToString(c.hours) + ("시간 " + (IntToString(c.minutes) + "분"))
    else IntToString(c.minutes) + "분"
  }

  function HoursText(h: nat, m: nat): string {
    NatToString(h) + ("시간 " + (NatToString(m) + "분"))
  }

  /** On a non-negative time `formatTimeWithHours` names the hours only from
      3600 seconds up, and the minutes are the leftover minutes in 0..59. */
  lemma FormatTimeWithHoursFields(s: real)
    requires s >= 0.0
    ensures var n := s.Floor;
      && (n >= 3600 ==> FormatTimeWithHours(s) == HoursText(n / 3600, (n % 3600) / 60))
      && (n < 3600 ==> FormatTimeWithHours(s) == NatToString(n / 60) + "분")
      && 0 <= (n % 3600) / 60 < 60
  {
    ClockOfNonNegative(s);
  }

  /** Reads `M분` or `H시간 M분` back to whole minutes. */
  function ParseHoursMinutes(t: string): Option<int> {
    match ScanNat(t)
    case None => None
    case Some((a, r1)) =>
      if r1 == "분" then Some(a)
      else if |r1| < 3 || r1[..3] != "시간 " then None
      else match ScanNat(r1[3..])
      case None => None
      case Some((b, r2)) => if r2 == "분" then Some(a * 60 + b) else None
  }

  /** `H시간 M분` reads back as hours and minutes. */
  lemma ParseHoursField(hh: string, mm: string) returns (t: string)
    requires |hh| >= 1 && AllDigits(hh)
    requires |mm| >= 1 && AllDigits(mm)
    ensures t == hh + ("시간 " + (mm + "분"))
    ensures ParseHoursMinutes(t) == Some(DigitsValue(hh) * 60 + DigitsValue(mm))
  {
    var r1 := "시간 " + (mm + "분");
    assert r1 != "분" && r1[..3] == "시간 " && r1[3..] == mm + "분";
    ScanDigits(hh, r1);
    ScanDigits(mm, "분");
    t := hh + r1;
  }

  /** `M분` reads back as minutes. */
  lemma ParseMinutesField(mm: string) returns (t: string)
    requires |mm| >= 1 && AllDigits(mm)
    ensures t == mm + "분"
    ensures ParseHoursMinutes(t) == Some(DigitsValue(mm))
  {
    ScanDigits(mm, "분");
    t := mm + "분";
  }

  /** The hours-and-minutes text of a clock with minutes in range reads back
      as its whole minutes. */
  lemma ShowHoursReadsBack(c: Clock) returns (t: string)
    requires c.hours >= 0 && 0 <= c.minutes < 60
    ensures t == ShowHours(c)
    ensures ParseHoursMinutes(t) == Some(60 * c.hours + c.minutes)
  {
    if c.hours > 0 {
      t := ParseHoursField(NatToString(c.hours), NatToString(c.minutes));
    } else {
      t := ParseMinutesField(NatToString(c.minutes));
    }
  }

  /** `formatTimeWithHours` shows exactly the whole minutes of the time. */
  lemma FormatTimeWithHoursRoundTrip(s: real)
    requires s >= 0.0
    ensures ParseHoursMinutes(FormatTimeWithHours(s)) == Some(s.Floor / 60)
  {
    ClockOfNonNegative(s);
    var c := ClockOf(s);
    assert s.Floor / 60 == 60 * c.hours + c.minutes;
    var t := ShowHoursReadsBack(c);
  }
}

=== FILE: timer.dfy ===
/** The timer page: a session counts down from the total time, one step at a
    time, and hands its state to the session-detail page on pause or finish.
    The wall clock (`Date.now()`, epoch milliseconds) and `Math.random()` are
    parameters. */
module Timer {
  import opened Options
  import opened Steps
  import opened Queries
  import opened Allocation
  import Tips
  import TimeFormat
  import Digits

  /** The render-stable tip: the step index and overtime flag at the last
      draw, and the tip drawn then. */
  datatype TipMemo = TipMemo(lastStep: Option<nat>, lastOvertime: bool, tip: string)

  /** `resumed` is the `isPaused=true` flag of the query: it selects the
      decrementing tick. `startTime` is epoch milliseconds; `totalTime`,
      `remaining` and the goals are seconds. */
  datatype Session = Session(
    subject: string,
    kind: string,
    totalTime: real,
    goals: seq<real>,
    resumed: bool,
    startTime: int,
    remaining: real,
    current: nat,
    records: seq<StepRecord>,
    finished: bool,
    memo: TipMemo)

  ghost predicate Valid(s: Session) {
    |s.records| == StepCount && s.current < StepCount && |s.goals| == StepCount
  }

  /** `parseFloat(totalTime || '0') * 3600`. */
  function TotalSeconds(q: TimerQuery): real {
    q.totalHours.GetOr(0.0) * 3600.0
  }

  /** `searchParams.get(key)`, with the empty string read as missing. */
  function Param(m: map<string, string>, key: string): (v: Option<string>)
    ensures v.Some? <==> key in m && m[key] != ""
    ensures v.Some? ==> v.value == m[key]
  {
    if key in m then NonEmpty(m[key]) else None
  }

  /** The number parameters the model reads are missing or plain decimals
      (anything else makes `parseFloat` give NaN or stop early). */
  predicate DecimalOrMissing(m: map<string, string>, key: string) {
    Param(m, key).None? || Digits.ParseDecimal(Param(m, key).value).Some?
  }

  function ReadDecimal(m: map<string, string>, key: string): (v: Option<real>)
    requires DecimalOrMissing(m, key)
    ensures v.None? <==> Param(m, key).None?
    ensures Param(m, key).Some? ==> v == Digits.ParseDecimal(Param(m, key).value)
  {
    match Param(m, key)
    case None => None
    case Some(t) => Digits.ParseDecimal(t)
  }

  predicate ReadableQuery(m: map<string, string>) {
    && DecimalOrMissing(m, "totalTime")
    && DecimalOrMissing(m, StageKeys.sketch) && DecimalOrMissing(m, StageKeys.color)
    && DecimalOrMissing(m, StageKeys.detail) && DecimalOrMissing(m, StageKeys.organize)
    && (Param(m, "startedAt").None? || Digits.AllDigits(Param(m, "startedAt").value))
  }

  /** The timer's reading of its query text. `records` is the outcome of
      decoding the `stepRecords` entry, which this model does not parse. */
  function ReadQuery(m: map<string, string>, records: RecordsParam): (q: TimerQuery)
    requires ReadableQuery(m)
    ensures q.subject == Param(m, "subject") && q.kind == Param(m, "type") && q.isPaused == Param(m, "isPaused")
    ensures q.totalHours == ReadDecimal(m, "totalTime")
    ensures q.stageHours == Stages(ReadDecimal(m, StageKeys.sketch), ReadDecimal(m, StageKeys.color),
                                   ReadDecimal(m, StageKeys.detail), ReadDecimal(m, StageKeys.organize))
    ensures q.startedAt.None? <==> Param(m, "startedAt").None?
    ensures Param(m, "startedAt").Some? ==> q.startedAt == Some(Digits.DigitsValue(Param(m, "startedAt").value) as int)
    ensures q.records == records
  {
    var started := match Param(m, "startedAt")
      case None => None
      case Some(t) => Some(Digits.DigitsValue(t) as int);
    TimerQuery(
      Param(m, "subject"), Param(m, "type"), ReadDecimal(m, "totalTime"),
      Stages(ReadDecimal(m, StageKeys.sketch), ReadDecimal(m, StageKeys.color),
             ReadDecimal(m, StageKeys.detail), ReadDecimal(m, StageKeys.organize)),
      Param(m, "isPaused"), records, started)
  }

  /** Stage times in seconds; `None` for a stage left on automatic. */
  function ExplicitSeconds(q: TimerQuery): (xs: seq<Option<real>>)
    ensures |xs| == StepCount
    ensures forall i :: 0 <= i < StepCount ==>
      (xs[i].None? <==> q.stageHours.Items()[i].None?) &&
      (xs[i].Some? ==> xs[i].value == q.stageHours.Items()[i].value * 3600.0)
  {
    var hs := q.stageHours.Items();
    seq(StepCount, i requires 0 <= i < StepCount => if hs[i].Some? then Some(hs[i].value * 3600.0) else None)
  }

  /** The goal time of every step. */
  function Goals(q: TimerQuery): (goals: seq<real>)
    ensures |goals| == StepCount
  {
    Allocate(TotalSeconds(q), ExplicitSeconds(q))
  }

  /** A stage given a time keeps it as its goal, in seconds, whatever the
      total and the other stages. */
  lemma ExplicitGoal(q: TimerQuery, i: nat)
    requires i < StepCount && q.stageHours.Items()[i].Some?
    ensures Goals(q)[i] == q.stageHours.Items()[i].value * 3600.0
  {
    assert ExplicitSeconds(q)[i].Some?;
  }

  /** Whether the records of a paused session are taken over: `isPaused` is
      exactly "true" and both `stepRecords` and `startedAt` are present. */
  predicate Restores(q: TimerQuery) {
    q.isPaused == Some("true") && !q.records.NoRecords? && q.startedAt.Some?
  }

  /** `findIndex(endTime === undefined)`, with -1 replaced by 0. */
  function ResumeStep(rs: seq<StepRecord>): (k: nat)
    ensures rs != [] ==> k < |rs|
    ensures FindUncompleted(rs) >= 0 ==> k == FindUncompleted(rs)
    ensures FindUncompleted(rs) == -1 ==> k == 0
  {
    var k := FindUncompleted(rs);
    if k == -1 then 0 else k
  }

  const NoTip: TipMemo := TipMemo(None, false, "")

  /** The session as the timer page starts it. A `stepRecords` value that is
      not valid JSON falls back to fresh records, step 0 and the current
      time, but the `isPaused` flag still selects the decrementing tick. */
  function Start(q: TimerQuery, nowMs: int): (s: Session)
    requires Restores(q) && q.records.Records? ==> |q.records.records| == StepCount
    ensures Valid(s) && !s.finished && s.memo == NoTip
    ensures s.resumed <==> q.isPaused == Some("true")
    ensures s.totalTime == TotalSeconds(q) && s.goals == Goals(q)
    ensures s.subject == TextOr(q.subject, DefaultSubject) && s.kind == TextOr(q.kind, DefaultKind)
    ensures Restores(q) && q.records.Records? ==>
      s.records == q.records.records && s.startTime == q.startedAt.value && s.current == ResumeStep(s.records)
    ensures !(Restores(q) && q.records.Records?) ==>
      s.records == FreshRecords() && s.startTime == nowMs && s.current == 0
    ensures s.resumed ==> s.totalTime - s.remaining == CompletedTime(s.records) as real
    ensures !s.resumed ==> s.remaining == s.totalTime
  {
    var resumed := q.isPaused == Some("true");
    var restored := Restores(q) && q.records.Records?;
    var records := if restored then q.records.records else FreshRecords();
    var current := if restored then ResumeStep(records) else 0;
    var start := if restored then q.startedAt.value else nowMs;
    var total := TotalSeconds(q);
    var elapsed := if resumed then CompletedTime(records) else 0;
    Session(TextOr(q.subject, DefaultSubject), TextOr(q.kind, DefaultKind), total, Goals(q),
            resumed, start, total - elapsed as real, current, records, false, NoTip)
  }

  /** Whole seconds since `startTime`: `Math.floor((now - startTime) / 1000)`. */
  function SecondsSince(s: Session, nowMs: int): int {
    (nowMs - s.startTime) / 1000
  }

  /** One firing of the once-a-second interval. Nothing happens once the
      session is finished; time may run below zero (overtime). */
  function Tick(s: Session, nowMs: int): (t: Session)
    ensures t.finished == s.finished
    ensures t == s.(remaining := t.remaining)
    ensures s.finished ==> t == s
    ensures !s.finished && s.resumed ==> t.remaining == s.remaining - 1.0
    ensures !s.finished && !s.resumed ==> t.remaining == s.totalTime - SecondsSince(s, nowMs) as real
  {
    if s.finished then s
    else if s.resumed then s.(remaining := s.remaining - 1.0)
    else s.(remaining := s.totalTime - SecondsSince(s, nowMs) as real)
  }

  /** A fresh session's clock is anchored to the wall clock: the time left
      after a tick depends only on the time of that tick, never on earlier
      ticks, however late they fired. */
  lemma FreshTickIsAnchored(s: Session, t1: int, t2: int)
    requires !s.finished && !s.resumed
    ensures Tick(s, t2).remaining == s.totalTime - ((t2 - s.startTime) / 1000) as real
    ensures Tick(Tick(s, t1), t2) == Tick(s, t2)
  {
  }

  /** A resumed session only counts ticks: after `n` ticks it has `n` seconds
      less, whenever they fired. */
  function Ticks(s: Session, times: seq<int>): Session
    decreases |times|
  {
    if times == [] then s else Ticks(Tick(s, times[0]), times[1..])
  }

  lemma {:induction false} ResumedTicksCount(s: Session, times: seq<int>)
    requires !s.finished && s.resumed
    ensures Ticks(s, times) == s.(remaining := s.remaining - |times| as real)
    decreases |times|
  {
    if times != [] {
      ResumedTicksCount(Tick(s, times[0]), times[1..]);
    }
  }

  /** The outcome of completing a step: the next session, and the query for
      the session-detail page when the last step was completed. */
  datatype Completion = Completion(next: Session, handoff: Option<DetailQuery>)

  /** The query the session-detail page receives. Numbers cross as their
      decimal text and are read back with `parseInt`, which drops the
      fraction. */
  function Handoff(s: Session, finished: bool, records: seq<StepRecord>): (q: DetailQuery)
    ensures q.records == Records(records) && q.startedAt == Some(s.startTime)
    ensures TextOr(q.subject, DefaultSubject) == TextOr(Some(s.subject), DefaultSubject)
    ensures TextOr(q.kind, DefaultKind) == TextOr(Some(s.kind), DefaultKind)
    ensures q.isFinished == Some("true") <==> finished
    ensures q.totalTime == Some(TimeFormat.Trunc(s.totalTime)) && q.remainingTime == Some(TimeFormat.Trunc(s.remaining))
  {
    DetailQuery(NonEmpty(s.subject), NonEmpty(s.kind), Some(s.startTime),
                Some(TimeFormat.Trunc(s.totalTime)), Some(if finished then "true" else "false"),
                Some(TimeFormat.Trunc(s.remaining)), Records(records))
  }

  /** The pause button: the current records go to the session-detail page as
      an unfinished session. */
  function Pause(s: Session): (q: DetailQuery)
    ensures q.isFinished != Some("true") && q.records == Records(s.records)
  {
    Handoff(s, false, s.records)
  }

  /** `handleStepComplete`: the current record gets `endTime` = seconds since
      the start and `duration` = that minus the durations of all earlier
      records; then the next step starts, or after the last one the session
      finishes and is handed off with the updated records. */
  function Complete(s: Session, nowMs: int): (c: Completion)
    requires Valid(s)
    ensures Valid(c.next)
    ensures |c.next.records| == |s.records|
    ensures forall i :: 0 <= i < |s.records| && i != s.current ==> c.next.records[i] == s.records[i]
    ensures c.next.records[s.current].name == s.records[s.current].name
    ensures c.next.records[s.current].endTime == Some(SecondsSince(s, nowMs))
    ensures c.next.records[s.current].duration == Some(SecondsSince(s, nowMs) - PrefixDuration(s.records, s.current))
    ensures s.current == StepCount - 1 ==>
      c.next.finished && c.next.current == s.current && c.handoff == Some(Handoff(s, true, c.next.records))
    ensures s.current < StepCount - 1 ==>
      c.next.finished == s.finished && c.next.current == s.current + 1 && c.handoff.None?
    ensures c.next == s.(records := c.next.records, current := c.next.current, finished := c.next.finished)
  {
    var now := SecondsSince(s, nowMs);
    var duration := now - PrefixDuration(s.records, s.current);
    var r := s.records[s.current];
    var records := s.records[s.current := StepRecord(r.name, Some(now), Some(duration))];
    if s.current == StepCount - 1 then
      Completion(s.(records := records, finished := true), Some(Handoff(s, true, records)))
    else
      Completion(s.(records := records, current := s.current + 1), None)
  }

  /** Steps before `k` are completed and carry their duration; steps from `k`
      on have neither end time nor duration. */
  ghost predicate NoGaps(rs: seq<StepRecord>, k: nat) {
    && k <= |rs|
    && (forall i :: 0 <= i < k ==> Completed(rs[i]) && rs[i].duration.Some?)
    && (forall i :: k <= i < |rs| ==> !Completed(rs[i]) && rs[i].duration.None?)
  }

  /** Every completed step ended when the durations up to it add up to. */
  ghost predicate Telescopes(rs: seq<StepRecord>, k: nat)
    requires k <= |rs|
  {
    forall i :: 0 <= i < k ==> rs[i].endTime == Some(PrefixDuration(rs, i + 1))
  }

  /** Number of completed steps. */
  function CompletedCount(s: Session): nat {
    if s.finished then StepCount else s.current
  }

  /** What completing steps in order keeps true. */
  ghost predicate Consistent(s: Session) {
    Valid(s) && NoGaps(s.records, CompletedCount(s)) && Telescopes(s.records, CompletedCount(s))
      && (s.finished ==> s.current == StepCount - 1)
  }

  lemma FreshStartIsConsistent(q: TimerQuery, nowMs: int)
    requires !Restores(q) || !q.records.Records?
    ensures Consistent(Start(q, nowMs))
  {
  }

  /** Completing the current step of an unfinished session keeps the session
      consistent; so after steps 0..k the durations of 0..k add up to the end
      time of step k. */
  lemma CompleteKeepsConsistent(s: Session, nowMs: int)
    requires Consistent(s) && !s.finished
    ensures Consistent(Complete(s, nowMs).next)
    ensures var n := Complete(s, nowMs).next;
      n.records[s.current].endTime == Some(PrefixDuration(n.records, s.current + 1))
  {
    var n := Complete(s, nowMs).next;
    var k := s.current;
    assert CompletedCount(n) == k + 1;
    forall i | 0 <= i <= k
      ensures PrefixDuration(n.records, i) == PrefixDuration(s.records, i)
    {
      PrefixDurationUnchanged(s.records, k, n.records[k], i);
    }
    assert n.records == s.records[k := n.records[k]];
    forall i | 0 <= i < k + 1
      ensures n.records[i].endTime == Some(PrefixDuration(n.records, i + 1))
    {
      if i < k {
        assert PrefixDuration(n.records, i + 1) == PrefixDuration(s.records, i + 1);
      }
    }
  }

  /** In a consistent unfinished session the current step is exactly the
      first uncompleted record. */
  lemma CurrentIsFirstUncompleted(s: Session)
    requires Consistent(s) && !s.finished
    ensures FindUncompleted(s.records) == s.current
    ensures ResumeStep(s.records) == s.current
  {
    assert !Completed(s.records[s.current]);
    assert forall i :: 0 <= i < s.current ==> Completed(s.records[i]);
  }

  // ---- Derived display values ----

  function Elapsed(s: Session): real {
    s.totalTime - s.remaining
  }

  predicate IsOvertime(s: Session) {
    s.remaining <= 0.0
  }

  /** `elapsed > totalTime ? elapsed - totalTime : 0`. */
  function OverTime(s: Session): (o: real)
    ensures o >= 0.0
    ensures o == (if s.remaining < 0.0 then -s.remaining else 0.0)
  {
    var e := Elapsed(s);
    if e > s.totalTime then e - s.totalTime else 0.0
  }

  /** A share of a positive whole is below one exactly when the part is
      below the whole. */
  lemma RatioBelowOne(a: real, b: real)
    requires 0.0 < b && a < b
    ensures a / b < 1.0
  {
    var r := a / b;
    assert (1.0 - r) * b == b - a;
  }

  lemma RatioAtLeastOne(a: real, b: real)
    requires 0.0 < b && b <= a
    ensures a / b >= 1.0
  {
    var r := a / b;
    assert (r - 1.0) * b == a - b;
  }

  /** `Math.min(elapsed / totalTime * 100, 100)`; `None` where JavaScript would
      divide by zero. Before overtime it is the elapsed share of the total;
      in overtime the bar is full. */
  function Progress(s: Session): (p: Option<real>)
    ensures p.Some? <==> s.totalTime != 0.0
    ensures p.Some? ==> p.value <= 100.0
    ensures p.Some? && s.totalTime > 0.0 && !IsOvertime(s) ==> p.value == Elapsed(s) / s.totalTime * 100.0
    ensures p.Some? && s.totalTime > 0.0 && IsOvertime(s) ==> p.value == 100.0
    ensures p.Some? && s.totalTime > 0.0 && 0.0 <= Elapsed(s) ==> 0.0 <= p.value
  {
    if s.totalTime == 0.0 then None
    else
      var ratio := Elapsed(s) / s.totalTime * 100.0;
      assert s.totalTime > 0.0 && IsOvertime(s) ==> ratio >= 100.0 by {
        if s.totalTime > 0.0 && IsOvertime(s) {
          assert Elapsed(s) >= s.totalTime;
          RatioAtLeastOne(Elapsed(s), s.totalTime);
        }
      }
      assert s.totalTime > 0.0 && !IsOvertime(s) ==> ratio < 100.0 by {
        if s.totalTime > 0.0 && !IsOvertime(s) {
          assert Elapsed(s) < s.totalTime;
          RatioBelowOne(Elapsed(s), s.totalTime);
        }
      }
      Some(if ratio < 100.0 then ratio else 100.0)
  }

  /** The seconds the big clock shows: the overtime when time is up, else
      the absolute time left. Either way it is the size of the time left. */
  function ClockSeconds(s: Session): (x: real)
    ensures x >= 0.0
    ensures x == (if s.remaining < 0.0 then -s.remaining else s.remaining)
  {
    if IsOvertime(s) then OverTime(s) else if s.remaining < 0.0 then -s.remaining else s.remaining
  }

  /** The big clock's text, which reads back as the whole seconds of the
      time left's size. */
  function MainClockText(s: Session): (text: string)
    ensures TimeFormat.ParseClock(text) == Some(ClockSeconds(s).Floor)
  {
    TimeFormat.FormatTimeRoundTrip(ClockSeconds(s));
    TimeFormat.FormatTime(ClockSeconds(s))
  }

  // ---- Tip memo ----

  /** The table key of the step at index `i`. */
  function StepTypeAt(i: nat): (t: Tips.StepType)
    requires i < StepCount
    ensures StepNames[i] in Tips.StepTypeOfName && t == Tips.StepTypeOfName[StepNames[i]]
    ensures i == StepCount - 1 <==> t == Tips.Finish
  {
    Tips.StepTypeOfName[StepNames[i]]
  }

  /** Whether a render draws a new tip: the step changed since the last draw,
      or overtime began since then. */
  predicate Redraws(s: Session) {
    s.memo.lastStep != Some(s.current) || (IsOvertime(s) && !s.memo.lastOvertime)
  }

  /** One render of the page: the tip is re-drawn only on a transition. */
  function Render(s: Session, rand: real): (t: Session)
    requires Valid(s) && 0.0 <= rand < 1.0
    ensures t == s.(memo := t.memo)
    ensures !Redraws(s) ==> t == s
    ensures Redraws(s) ==> t.memo.lastStep == Some(s.current) && t.memo.lastOvertime == IsOvertime(s)
    ensures Redraws(s) ==> t.memo.tip in Tips.TipList(Tips.ShippedTips, StepTypeAt(s.current), Tips.CategoryOf(IsOvertime(s)))
  {
    if Redraws(s) then
      Tips.ShippedTipsNonEmpty(StepTypeAt(s.current), IsOvertime(s), rand);
      s.(memo := TipMemo(Some(s.current), IsOvertime(s), Tips.StepTip(StepTypeAt(s.current), IsOvertime(s), rand)))
    else s
  }

  /** Re-rendering without a transition never re-rolls the tip. */
  lemma RenderIsStable(s: Session, rand1: real, rand2: real)
    requires Valid(s) && 0.0 <= rand1 < 1.0 && 0.0 <= rand2 < 1.0
    ensures Render(Render(s, rand1), rand2) == Render(s, rand1)
  {
  }

  /** The tip shown during overtime is the step's overtime tip. */
  lemma OvertimeTipShown(s: Session, rand: real)
    requires Valid(s) && 0.0 <= rand < 1.0 && IsOvertime(s) && Redraws(s)
    ensures Render(s, rand).memo.tip == Tips.TipList(Tips.ShippedTips, StepTypeAt(s.current), Tips.Overtime)[0]
  {
    Tips.OvertimeTipIsFixed(StepTypeAt(s.current), rand, 0.0);
  }
}

=== FILE: tips.dfy ===
/** Step tips: a fixed table of hints per step and category, and the pick of
    one hint. `Math.random()` is the parameter `rand` in [0, 1). */
module Tips {

  datatype StepType = Sketch | Color | Detail | Finish
  datatype Category = Default | Overtime

  type TipTable = map<StepType, map<Category, seq<string>>>

  /** The shipped table. */
  const ShippedTips: TipTable := map[
    Sketch := map[
      Default := [
        "주제를 잘 표현할 수 있는 아이디어인지 판단해!",
        "주제부가 가장 눈에 띄어야 해. 전체 비율은 바닥에 놓고 멀리서 한 번 봐봐.",
        "주제부는 디테일하게, 배경은 채색하면서 잡아도 돼."
      ],
      Overtime := [
        "스케치 오래했어. 채색 시간을 아껴야 하니까, 디테일은 다음 단계에서 마무리해!"
      ]
    ],
    Color := map[
      Default := [
        "주제부는 맑고 쨍하게! 가장 눈에 들어와야 해.",
        "방금 만든 물감 색으로 바를 수 있는 곳들부터 빠르게 채워!",
        "덩어리감(양감)부터 잡아줘. 초벌은 빠르게, 정확하게!",
        "가장 밝은 화이트 영역은 남겨두고 칠해도 좋아."
      ],
      Overtime := [
        "시간 부족해! 디테일보단 덩어리 먼저. 묘사에서 정리하면 돼."
      ]
    ],
    Detail := map[
      Default := [
        "묘사는 주제부가 가장 디테일해야 해!",
        "질감 표현이 핵심이야. 물성, 표면에 집중해봐.",
        "채색 단계에서 지저분한 부분 정리하면서 묘사해. 두 번 일 하지 마!"
      ],
      Overtime := [
        "묘사 너무 오래 했어. 정리할 시간 생각해서 마무리하자."
      ]
    ],
    Finish := map[
      Default := [
        "바닥에 놓고 전체 그림 느낌 한 번 더 봐봐.",
        "지저분한 라인 있으면 깔끔하게 정리!",
        "주제부 아닌 곳이 더 눈에 띈다면, 마카로 눌러줘.",
        "화이트, 블랙을 잘 조절해서 주제부 강조!"
      ],
      Overtime := [
        "더 만지면 무너질 수도 있어. 정리하고 멈추자!"
      ]
    ]
  ]

  function CategoryOf(isOvertime: bool): (c: Category)
    ensures c == Overtime <==> isOvertime
  {
    if isOvertime then Overtime else Default
  }

  /** The list for a step and category. A missing category gives no list,
      read here as empty; a missing step would make the source throw, but
      the shipped table has every step, so that case never arises there. */
  function TipList(table: TipTable, step: StepType, c: Category): seq<string> {
    if step in table && c in table[step] then table[step][c] else []
  }

  /** `Math.floor(Math.random() * length)`. */
  function RandomIndex(rand: real, length: nat): (i: nat)
    requires 0.0 <= rand < 1.0 && length > 0
    ensures i < length
  {
    assert rand * length as real < length as real by {
      assert (1.0 - rand) * length as real > 0.0;
    }
    (rand * length as real).Floor
  }

  /** `getStepTip` over a given table: an empty string when the category's
      list is missing or empty, otherwise the randomly indexed entry of the list. */
  function StepTipFrom(table: TipTable, step: StepType, isOvertime: bool, rand: real): (tip: string)
    requires 0.0 <= rand < 1.0
    ensures var list := TipList(table, step, CategoryOf(isOvertime));
      && (|list| == 0 ==> tip == "")
      && (|list| > 0 ==> exists i :: 0 <= i < |list| && tip == list[i])
  {
    var list := TipList(table, step, CategoryOf(isOvertime));
    if |list| == 0 then "" else list[RandomIndex(rand, |list|)]
  }

  /** `getStepTip` with the shipped table. */
  function StepTip(step: StepType, isOvertime: bool, rand: real): string
    requires 0.0 <= rand < 1.0
  {
    StepTipFrom(ShippedTips, step, isOvertime, rand)
  }

  /** Every list of the shipped table is non-empty and no hint in it is
      empty, so a tip is never the empty string. */
  lemma ShippedTipsNonEmpty(step: StepType, isOvertime: bool, rand: real)
    requires 0.0 <= rand < 1.0
    ensures |TipList(ShippedTips, step, CategoryOf(isOvertime))| > 0
    ensures StepTip(step, isOvertime, rand) != ""
    ensures StepTip(step, isOvertime, rand) in TipList(ShippedTips, step, CategoryOf(isOvertime))
  {
    var list := TipList(ShippedTips, step, CategoryOf(isOvertime));
    assert forall i :: 0 <= i < |list| ==> |list[i]| > 0;
  }

  /** Each overtime list holds exactly one hint: the overtime tip of a step
      does not depend on the random draw. */
  lemma OvertimeTipIsFixed(step: StepType, rand1: real, rand2: real)
    requires 0.0 <= rand1 < 1.0 && 0.0 <= rand2 < 1.0
    ensures |TipList(ShippedTips, step, Overtime)| == 1
    ensures StepTip(step, true, rand1) == StepTip(step, true, rand2) == TipList(ShippedTips, step, Overtime)[0]
  {
  }

  /** Step names as the timer shows them, mapped to the table's keys; the
      last step, "정리" (organise), is the table's `Finish`. */
  const StepTypeOfName: map<string, StepType> := map[
    "스케치" := Sketch, "채색" := Color, "묘사" := Detail, "정리" := Finish
  ]
}
